=== FILE: README.md ===
# VLSM allocation engine — a Dafny model

This project models the allocation engine of `vlsm.go`, a command-line tool
that carves variable-length subnets out of an IPv4 network. The tool collects
a parent network in CIDR form and a list of requests. Each request is a
number of usable host addresses plus a type byte (`<` minimum, `=` balanced,
`>` maximum). It sorts the requests largest first and walks the parent's
address space, sizing one block per request. It stops with "Network not big
enough" in two cases. One is when a request's block needs more host bits than
the current mask leaves (`CalcMask`). The other is when the last request's
broadcast address lies above the parent's last address. Only that upper end is
compared: a block that wraps past 255.255.255.255 passes the test (second
finding below).

The model covers:

- the `uint32` arithmetic (`Wrap32`, `CalcAddress`);
- the bit-length computations built from `fmt.Sprintf("%b")`,
  `strings.Repeat` and `strconv.ParseInt` (`Bits`);
- `CalcPoolSize`, `CalcMask` and `CalcSubnet` (`Sizing`);
- `CalcBoundary` and `NetworkHasAddress` (`Addressing`);
- the range checks on the number of subnets, the sizes and the type bytes
  (`Params`);
- `SubnetParamsSort.Less` and what `sort.Sort` guarantees (`Ordering`);
- `CalcVLSM`, written as a fold: `Step` is one loop iteration, and `Run`
  threads the loop variables `nextNetwork`, `subnets` and `valid` over the
  requests (`Allocation`);
- the part of `main` that sorts, allocates and turns `valid == false` into a
  fatal exit (`Allocation.Plan`).

How Go constructs are modelled:

- Every `log.Fatal` of the engine becomes an `Err` of `Results.Result`.
- Addresses are integers below 2^32.
- A mask is its prefix length.
- `net.IPNet` is `Addressing.Network`.
- `Subnet.poolRange` is the pair `poolFrom`, `poolTo`.

`Findings` holds two places where the code does not do what its output
claims (see below). For each, it gives an input that shows the problem and a
corrected definition with the intended property proved.

Three properties of the code that a reader might expect to be otherwise:

- The loop in `CalcVLSM` does not stop at a rejection. A candidate that
  fails the boundary test is skipped, the cursor stays where it was, and the
  loop goes on (`CalcVLSMAcceptsOrSkips`). `valid` is overwritten on every
  iteration, so only the last request's test decides whether `main` exits
  (`ValidIsLastCheck`, `PlanDecidedByLastRequest`). `main` itself is still
  all-or-nothing. It sorts the requests, and `net.ParseCIDR` returns the
  parent at the start of its block. Along sorted requests the spans (pool
  plus two addresses) are powers of two that never grow, so each accepted
  span starts at a multiple of its own size. The span is not always the
  recorded CIDR block (first finding). Once a candidate is rejected, the
  cursor already sits at the parent's end, and every later candidate is
  rejected too. The exception is a parent that
  ends at 255.255.255.255: there the cursor wraps and every candidate passes
  (second finding). So when `main` succeeds, every request has a subnet,
  served in sorted order (`SortedAllOrNothing`, `Plan`,
  `PlanServesEachRequest`). On sorted input the loop never fails with an
  error except at the first request (`SortedFailsOnlyAtFirst`).
- `sort.Sort` is not stable, so the model assumes only its postcondition.
  `TieOrderIrrelevant` shows that the order among ties cannot change the
  result, because the engine reads only sizes.
- `CalcVLSM` does not re-check request sizes; only the prompts do
  (vlsm.go:140 and 146, `Params.CheckSubnetParams`). `Plan` takes those
  checks as its precondition, and `Params.ChecksEstablishValidRequests`
  shows the checks establish exactly that precondition.

## Model

| member | source | states |
|---|---|---|
| Bits.FormatBinaryRoundTrip | vlsm.go:168 | the digits `%b` prints for x, read back as a binary number, give x |
| Bits.BitLengthBounds | vlsm.go:184 | the length of `%b` of x is the k with 2^(k-1) <= x < 2^k, and 1 for x = 0 |
| Bits.BitLengthFits | vlsm.go:183-186 | a bit length of at most k is the same as x < 2^k |
| Bits.BitLengthMonotone | vlsm.go:184 | a larger number never has a shorter `%b` rendering |
| Bits.RepeatOnesValue | vlsm.go:169 | a string of n ones is the binary number 2^n - 1 |
| Bits.FormatParseRoundTrip | vlsm.go:168-169 | `ParseInt(…, 2, 32)` inverts `%b` for every value below 2^31 |
| Bits.ParseOnes | vlsm.go:169-172 | parsing b ones: a syntax error for b = 0, 2^b - 1 for 1 <= b <= 31, a range error for b >= 32 |
| Addressing.CalcAddress | vlsm.go:176-179 | the address plus the offset, reduced modulo 2^32: exact without overflow, 2^32 less with it |
| Addressing.CalcBoundary | vlsm.go:209-213 | for a network whose address is the start of its block, the block's last address |
| Addressing.BoundaryIsLastOfBlock | vlsm.go:209-213 | an address is in the network's block iff it lies between the network address and the boundary |
| Addressing.NetworkHasAddressIsUpperBoundOnly | vlsm.go:215-220 | `NetworkHasAddress` accepts exactly the block's addresses and every address below the network address |
| Params.CheckSubnetCount | vlsm.go:94-96 | a count is accepted iff 1 <= count <= 2^31; a rejection is `InvalidSubnetCount` |
| Params.CheckSubnetParams | vlsm.go:140-148 | a request is accepted iff its size is in 1 .. 2^31 - 2 and its type byte is 60 .. 62; the size is checked first |
| Params.ChecksEstablishValidRequests | vlsm.go:270-276 | the count check plus every request's check pass exactly when the requests satisfy the engine's precondition |
| Sizing.PoolHostBitsFacts | vlsm.go:168 | the pool's host bits are at most 31 iff 1 <= n <= 2^31; for n >= 2, 2^bits lies in [n, 2n) |
| Sizing.CalcPoolSize | vlsm.go:167-174 | succeeds iff 1 <= n <= 2^31, otherwise a `ParseInt` range error; the pool plus two is 2 raised to the bit length of n - 1; for n >= 2 that is the least power of two >= n, and for n = 1 the pool is 0 |
| Sizing.CalcMask | vlsm.go:181-192 | fails with "Network not big enough" iff n does not fit below the current block size; otherwise a prefix no shorter than the input whose block holds n addresses and at most 2n |
| Sizing.CalcMaskIdempotent | vlsm.go:237 | re-running `CalcMask` on its own result with the same host count gives that result again |
| Sizing.CalcMaskMonotone | vlsm.go:181-192 | a smaller host count fits wherever a larger one does, with a prefix at least as long |
| Sizing.CalcSubnet | vlsm.go:194-207 | fails iff the mask or the pool size fails; keeps the network address; the pool runs from 1 to `poolSize` addresses past it and the broadcast is `poolSize + 1` past it, each modulo 2^32; without wrap-around the pool lies strictly between network and broadcast and holds `poolSize` addresses |
| Sizing.CalcSubnetFixedPoint | vlsm.go:194-207 | sizing a computed subnet again at its own address and mask gives the same subnet |
| Sizing.PoolSizeCoversRequest | vlsm.go:140-142 | for a size that passes the check, `size + 2` does not wrap and the pool holds at least the size and fewer than 2·size + 2 addresses |
| Ordering.SortedByLessIsDescending | vlsm.go:50-52 | no later element being `Less` than an earlier one is the same as sizes never increasing |
| Ordering.SortBySize | vlsm.go:277 | a permutation of the requests with the same length that `Less` considers sorted |
| Ordering.PermutationSizes | vlsm.go:277 | permuting requests permutes their sizes |
| Ordering.DescendingPermutationsEqual | vlsm.go:50-52 | two non-increasing sequences with the same elements are equal |
| Ordering.TiedOrdersAgreeOnSizes | vlsm.go:277 | every order `sort.Sort` may produce for the same requests has the same sequence of sizes |
| Allocation.Step | vlsm.go:228-237 | one iteration: fails iff sizing fails; `valid` is the boundary test of the candidate's broadcast; an accepted candidate is appended and the cursor moves past its broadcast with its mask; a rejected one changes nothing but `valid` |
| Allocation.Run | vlsm.go:226-252 | the loop fails only with the sizing errors and adds at most one subnet per request |
| Allocation.RunInvariants | vlsm.go:226-252 | the subnets it started with are kept; every appended subnet is the block sized at its own address for its request, in request order; boundary and contiguity are preserved |
| Allocation.RunAppend | vlsm.go:226-252 | running over two lists in a row is running over their concatenation |
| Allocation.CalcVLSM | vlsm.go:222-255 | soundness: every returned subnet serves a request, in order, passes the boundary test and starts right after the previous one; the first starts at the parent's address |
| Allocation.RunIgnoresValid | vlsm.go:231-237 | the incoming `valid` is never read: the subnets do not depend on it, and over a non-empty list nothing does |
| Allocation.RunVisitsFirst | vlsm.go:231-237 | an iteration whose candidate passes the boundary test puts it at the next index of the final subnets; one whose candidate fails leaves the rest of the loop running from the same cursor and subnets |
| Allocation.CalcVLSMAcceptsOrSkips | vlsm.go:227-252 | for a request met after the requests `a`: if its candidate, sized where the loop over `a` left the cursor, passes the boundary test it is the next subnet after those of `a`; otherwise the subnets are those of the requests without it, and the whole result too unless it was last |
| Allocation.ValidIsLastCheck | vlsm.go:232 | the returned `valid` is the boundary test of the last request's candidate, whatever happened before |
| Allocation.TypeByteIgnored | vlsm.go:226-252 | requests that agree on their sizes get identical allocations, whatever their type bytes |
| Allocation.SizesDetermineRun | vlsm.go:226-252 | the loop's result depends on the requests only through their sizes |
| Allocation.TieOrderIrrelevant | vlsm.go:277-281 | any two sorted permutations of the same requests give the same allocation |
| Allocation.StepKeepsRoom | vlsm.go:236-237 | after any iteration the cursor's mask still fits every request no larger than the one just processed |
| Allocation.SortedRunSucceeds | vlsm.go:226-252 | on sorted, checked requests whose first request fits, the loop never fails |
| Allocation.SortedFailsOnlyAtFirst | vlsm.go:181-192 | on sorted, checked requests the engine fails iff the largest request plus two does not fit below the parent's block size, and then with "Network not big enough" |
| Allocation.Plan | vlsm.go:277-285 | on checked requests the only fatal exit is "Network not big enough", and it happens iff the largest request plus two reaches the parent's block size or the returned `valid` is false; a result serves the sorted requests in order and passes the boundary test; for a parent at the start of its block, as `net.ParseCIDR` returns it, a result has one subnet per request |
| Allocation.PlanServesEachRequest | vlsm.go:277-285 | for a parent at the start of its block, a result's i-th subnet serves the i-th sorted request, for every request |
| Allocation.SortedAllOrNothing | vlsm.go:222-255 | on sorted, checked requests in a parent at the start of its block, an allocation that ends valid has one subnet per request |
| Allocation.AlignedRunAllOrNothing | vlsm.go:226-252 | in a parent that does not end at 255.255.255.255, a loop that starts at an offset aligned to the next sorted request's block and ends valid has accepted every remaining request |
| Allocation.FullParentRejects | vlsm.go:231-237 | once the cursor sits right after the end of a parent that does not end at 255.255.255.255, every later candidate is rejected: no subnet is added and `valid` ends false |
| Allocation.TopParentAcceptsAll | vlsm.go:215-237 | in a parent that ends at 255.255.255.255 every candidate passes the boundary test, so a loop that does not fail accepts every request |
| Allocation.SpanDivides | vlsm.go:167-174 | the block of a smaller checked request (pool plus two) is a power of two that divides the block of a larger one |
| Allocation.SpanFitsParent | vlsm.go:181-192 | a checked request that fits below the parent's block size has a block that divides the parent's block |
| Allocation.ServedInOrderFull | vlsm.go:226-252 | when the loop hands out as many subnets as there are requests, the i-th subnet serves the i-th request |
| Allocation.PlanDecidedByLastRequest | vlsm.go:281-285 | when the largest request fits, `main` succeeds iff the last sorted request's candidate, sized where the loop over the others left the cursor, passes the boundary test |
| Allocation.PlanIgnoresTieOrder | vlsm.go:277-285 | `main`'s result is the same for whichever sorted order the sort produces |
| Findings.HostBitsMismatch | vlsm.go:167-192 | for n >= 2 the mask's host bits equal the pool's, plus one exactly when n is a power of two |
| Findings.MaskBlockVersusPool | vlsm.go:194-207 | as written, the mask's block is the pool plus two addresses, or twice that when n is a power of two |
| Findings.MaskPoolMismatchWitness | vlsm.go:194-207 | as written, 2 hosts in 192.168.1.0/24 give 192.168.1.0/29 with broadcast 192.168.1.3, and 192.168.1.4 lies in that /29 |
| Findings.FixedCalcMask | vlsm.go:181-192 | corrected: succeeds for n >= 1 iff n fits the current block; the new block is the pool's power of two |
| Findings.FixedCalcSubnet | vlsm.go:194-207 | corrected: the block holds exactly the pool plus two addresses, that is 2 raised to the pool's host bits, and for a masked network the broadcast is the block's last address |
| Findings.FixedAgreesOffPowersOfTwo | vlsm.go:181-207 | the correction changes nothing unless the host count is a power of two |
| Findings.WrapAroundWitness | vlsm.go:215-237 | as written, two 1-host requests in 255.255.255.252/30 are both accepted; the second is 0.0.0.0/30, outside the parent |
| Findings.WrapAroundNotSeparated | vlsm.go:215-237 | the as-written result on that input violates the corrected containment |
| Findings.CursorAfter | vlsm.go:236 | inside a parent with a prefix of at least 1, the next cursor never wraps back into the parent |
| Findings.FixedStep | vlsm.go:228-237 | corrected iteration: accepts a candidate iff it lies entirely between the parent's first and last address |
| Findings.FixedCalcVLSM | vlsm.go:222-255 | corrected loop: every subnet lies inside the parent and starts after the previous one's broadcast |
| Findings.FixedCalcVLSMAcceptsOrSkips | vlsm.go:227-252 | corrected loop, for a request met after the requests `a`: if its candidate, sized where the loop over `a` left the cursor, lies inside the parent it is the next subnet after those of `a`; otherwise the subnets are those of the requests without it, and the whole result too unless it was last |
| Findings.FixedRunVisitsFirst | vlsm.go:231-237 | corrected iteration: a candidate inside the parent is the next subnet of the final result; any other leaves the rest of the loop running from the same cursor and subnets |
| Findings.SeparatedDisjoint | vlsm.go:222-255 | subnets of the corrected loop are pairwise disjoint |
| Findings.InsideIsInBlock | vlsm.go:209-220 | a subnet accepted by the corrected test lies in the parent's CIDR block |
| Findings.FixedPlan | vlsm.go:277-285 | with both corrections, any result is a list of disjoint subnets inside the parent; for a parent at the start of its block each subnet's address is the start of its block and its broadcast is that block's last address |
| Findings.FixedPlanBlocksDisjoint | vlsm.go:277-285 | with both corrections and a parent at the start of its block, no address lies in the CIDR blocks of two different subnets |
| Findings.FixedSortedExact | vlsm.go:222-255 | the corrected loop on sorted requests in a parent at the start of its block hands out only subnets that are exactly their CIDR block |
| Findings.FixedAlignedRun | vlsm.go:226-252 | from an offset aligned to the next sorted request's block, the corrected loop keeps every subnet exactly its block |
| Findings.FixedPlacement | vlsm.go:231-237 | a candidate sized at an aligned offset that passes the corrected inside test starts at a multiple of its block size, ends at its block's last address, and leaves the offset within the parent |
| Findings.KeepAligned | vlsm.go:233 | an offset aligned to the next sorted request's span is also aligned to the span of the request after it |
| Findings.FirstSpanFits | vlsm.go:181-192 | the corrected loop passes its first request only if that request's block fits the parent's block |

## Left out

- The prompts `AskForNetwork`, `AskForNumberOfSubnets`, `AskForSubnetSize`, `AskForSubnetType`, `AskForSubnetParams` and `AskForOutputFileName` are left out: they are console I/O. Their defaults and `strconv.Atoi` parsing are left out too. Their range checks are kept as `Params.CheckSubnetCount` and `Params.CheckSubnetParams`.
- The `uint32(n)` truncations of the parsed count and size (lines 91 and 117) are left out: the checks take the already truncated `uint32` value.
- `net.ParseCIDR` is left out: it is a library parser. The parent `Network` is a parameter.
- `SaveOutput` and the report text are left out: they are file I/O and formatting. This includes `dottedMask` and the dotted-quad rendering of addresses.
- `Addressing.CalcBoundary`: requires a prefix of at least 1. For /0, `math.Pow(2, 32)` converted to `uint32` is implementation-defined in Go, and `ParseCIDR` of a /0 parent is the only way to reach it.
- `sort.Sort` internals are left out: only its postcondition is modelled. `Ordering.SortBySize` is one function that meets it.
- The commented-out "balanced" block inside the `type_ == 61` branch is left out: it does nothing.
- `Bits.ParseInt32Base2`: covers only unsigned digit strings, the only input it receives here. Signs, prefixes and underscores are not modelled.

## Findings

| source | as written | input that shows it | evidently intended | confidence | as-written member | corrected member |
|---|---|---|---|---|---|---|
| vlsm.go:181-207 | `CalcMask` sizes the block by the bit length of `numberOfHosts`, but `CalcPoolSize` and the broadcast use the bit length of `numberOfHosts - 1`; at powers of two the mask's block is twice as large as the pool and its broadcast fill | 192.168.1.0/24, one request of size 2: recorded as 192.168.1.0/29 with broadcast 192.168.1.3, so the next subnet, at 192.168.1.4, lies inside that /29 | the mask names exactly the block from the network address to the broadcast address | high (not executed) | Findings.MaskPoolMismatchWitness | Findings.FixedCalcSubnet |
| vlsm.go:215-237 | the boundary test compares only the broadcast address with the parent's last address, and the cursor wraps past 255.255.255.255 | 255.255.255.252/30, two requests of size 1: the second subnet is 0.0.0.0/30, accepted, and `valid` ends true | a subnet is accepted only if it lies inside the parent | medium (not executed) | Findings.WrapAroundWitness | Findings.FixedCalcVLSM |

=== FILE: addressing.dfy ===
/** IPv4 addresses as 32-bit unsigned integers and CIDR networks as an
    address paired with a prefix length (RFC 4632, section 3.1). */
module Addressing {
  import opened Bits

  /** An IPv4 address read big-endian as an unsigned 32-bit integer. */
  type Address = Uint32

  /** A mask in CIDR notation: the number of leading one bits. */
  type Prefix = p: int | 0 <= p <= 32

  /** `net.IPNet`, with the mask as its prefix length. */
  datatype Network = Network(address: Address, prefix: Prefix)

  /** Number of addresses a network of this prefix spans. */
  function BlockSize(p: Prefix): nat {
    Pow2(32 - p)
  }

  /** The address has no bits set below the prefix (what `net.ParseCIDR` returns). */
  predicate Masked(n: Network) {
    n.address % BlockSize(n.prefix) == 0
  }

  /** The address agrees with the network on the first `prefix` bits. */
  predicate InBlock(n: Network, a: Address) {
    a / BlockSize(n.prefix) == n.address / BlockSize(n.prefix)
  }

  /** `CalcAddress`: add an offset with no overflow check; past 255.255.255.255
      the sum wraps round to the bottom of the address space. */
  function CalcAddress(a: Address, offset: Uint32): (r: Address)
    ensures a + offset < Two32 ==> r == a + offset
    ensures a + offset >= Two32 ==> r == a + offset - Two32
  {
    Wrap32(a + offset)
  }

  /** `CalcBoundary`: the last address of the block. For an already-masked
      network no wrap-around happens and the boundary is base + 2^(32-p) - 1. */
  function CalcBoundary(n: Network): (r: Address)
    requires 1 <= n.prefix
    ensures Masked(n) ==> r == n.address + BlockSize(n.prefix) - 1
  {
    Pow2AtMost32(32 - n.prefix);
    MaskedBlockFits(n);
    CalcAddress(n.address, BlockSize(n.prefix) - 1)
  }

  /** `NetworkHasAddress`: compares against the boundary only. */
  function NetworkHasAddress(n: Network, a: Address): bool
    requires 1 <= n.prefix
  {
    a <= CalcBoundary(n)
  }

  lemma {:induction false} MulLess(b: nat, x: nat, y: nat)
    requires x < y
    ensures b * x + b <= b * y
  {
    var d := y - x - 1;
    assert b * y == b * (x + 1 + d) == b * x + b + b * d;
  }

  lemma {:induction false} DivIs(a: nat, b: nat, q: nat)
    requires b >= 1
    ensures a / b == q <==> b * q <= a < b * q + b
  {
    var d, m := a / b, a % b;
    assert a == b * d + m && 0 <= m < b;
    if d < q {
      MulLess(b, d, q);
    } else if d > q {
      MulLess(b, q, d);
    }
  }

  lemma {:induction false} AlignedFits(a: nat, b: nat, top: nat)
    requires b >= 1 && a % b == 0 && a < b * top
    ensures a + b <= b * top
  {
    var q := a / b;
    assert a == b * q;
    if q >= top {
      assert false;
    }
    MulLess(b, q, top);
  }

  lemma {:induction false} MultipleMod(h: nat, k: nat)
    requires h >= 1
    ensures (h * k) % h == 0
  {
    DivIs(h * k, h, k);
  }

  /** `off` is a whole number of `g`-address blocks, stated by repeated
      subtraction; `AlignedIsMod` relates it to the remainder. */
  predicate Aligned(off: nat, g: nat)
    decreases off
  {
    off == 0 || (1 <= g <= off && Aligned(off - g, g))
  }

  lemma {:induction false} AlignedIsMod(off: nat, g: nat)
    requires g >= 1
    ensures Aligned(off, g) <==> off % g == 0
    decreases off
  {
    if off >= g {
      AlignedIsMod(off - g, g);
      var q := (off - g) / g;
      assert g * (q + 1) == g * q + g;
      DivIs(off, g, q + 1);
    }
  }

  /** An aligned block that starts before the end of a region made of such
      blocks ends inside it, and the next offset stays aligned to any
      divisor of the block size. */
  lemma {:induction false} AlignedAdvance(off: nat, g: nat, h: nat, total: nat)
    requires 1 <= h && 1 <= g && g % h == 0 && total % g == 0
    requires Aligned(off, g) && off < total
    ensures off + g <= total
    ensures Aligned(off + g, h)
  {
    AlignedIsMod(off, g);
    AlignedRoom(off, g, total);
    DividesTrans(off, g, h);
    DividesSum(off, g, h);
    AlignedIsMod(off + g, h);
  }

  /** A power of two is a multiple of every power of two up to it. */
  lemma {:induction false} Pow2Multiple(a: nat, b: nat)
    requires a <= b
    ensures 1 <= Pow2(a) <= Pow2(b)
    ensures Pow2(b) % Pow2(a) == 0
  {
    Pow2Monotone(a, b);
    Pow2Add(a, b - a);
    MultipleMod(Pow2(a), Pow2(b - a));
  }

  /** Divisibility is transitive. */
  lemma {:induction false} DividesTrans(x: nat, g: nat, h: nat)
    requires g >= 1 && h >= 1
    requires x % g == 0 && g % h == 0
    ensures x % h == 0
  {
    var a, b := x / g, g / h;
    assert x == g * a && g == h * b;
    assert x == h * (b * a);
    MultipleMod(h, b * a);
  }

  lemma {:induction false} DividesSum(x: nat, y: nat, h: nat)
    requires h >= 1 && x % h == 0 && y % h == 0
    ensures (x + y) % h == 0
  {
    var a, b := x / h, y / h;
    assert x + y == h * (a + b);
    MultipleMod(h, a + b);
  }

  /** An offset aligned to `g` below a multiple of `g` leaves room for a whole
      block of `g` addresses. */
  lemma {:induction false} AlignedRoom(off: nat, g: nat, total: nat)
    requires g >= 1 && total % g == 0 && off % g == 0 && off < total
    ensures off + g <= total
  {
    assert total == g * (total / g);
    AlignedFits(off, g, total / g);
  }

  /** A prefix splits the address space into 2^p blocks of 2^(32-p) addresses. */
  lemma BlockSizeTimesBlocks(p: Prefix)
    ensures BlockSize(p) * Pow2(p) == Two32
  {
    var lo, hi := Pow2(32 - p), Pow2(p);
    Pow2Add(p, 32 - p);
    assert hi * lo == Pow2(32);
    Pow2Of31And32();
    assert lo * hi == Two32;
  }

  lemma {:induction false} MaskedBlockFits(n: Network)
    ensures Masked(n) ==> n.address + BlockSize(n.prefix) <= Two32
  {
    if Masked(n) {
      BlockSizeTimesBlocks(n.prefix);
      AlignedFits(n.address, BlockSize(n.prefix), Pow2(n.prefix));
    }
  }

  /** Where a masked network ends: inside the address space; when it does not
      end at 255.255.255.255, a whole block of the same size follows it; when
      it does (and is not the whole space), it does not start at 0.0.0.0. */
  lemma {:induction false} MaskedEnd(n: Network)
    requires 1 <= n.prefix && Masked(n)
    ensures n.address + BlockSize(n.prefix) <= Two32
    ensures n.address + BlockSize(n.prefix) < Two32 ==> n.address + 2 * BlockSize(n.prefix) <= Two32
    ensures n.address + BlockSize(n.prefix) == Two32 ==> n.address > 0
  {
    var b := BlockSize(n.prefix);
    MaskedBlockFits(n);
    BlockSizeTimesBlocks(n.prefix);
    MultipleMod(b, 1);
    DividesSum(n.address, b, b);
    if n.address + b < Two32 {
      AlignedFits(n.address + b, b, Pow2(n.prefix));
    }
    Pow2Monotone(32 - n.prefix, 31);
    Pow2Of31And32();
  }

  /** The boundary is the last address of the block: an address lies in the
      network exactly when it falls between the base and the boundary. */
  lemma {:induction false} BoundaryIsLastOfBlock(n: Network, a: Address)
    requires 1 <= n.prefix && Masked(n)
    ensures InBlock(n, a) <==> n.address <= a <= CalcBoundary(n)
  {
    var b := BlockSize(n.prefix);
    var q := n.address / b;
    assert n.address == b * q;
    DivIs(a, b, q);
  }

  /** `NetworkHasAddress` has no lower bound: it holds of every address in the
      block and of every address below the base as well. */
  lemma {:induction false} NetworkHasAddressIsUpperBoundOnly(n: Network, a: Address)
    requires 1 <= n.prefix && Masked(n)
    ensures NetworkHasAddress(n, a) <==> InBlock(n, a) || a < n.address
  {
    BoundaryIsLastOfBlock(n, a);
  }
}

=== FILE: allocation.dfy ===
/** `CalcVLSM`: the allocation loop, written as a fold over the requests that
    threads the loop's variables, and the part of `main` that sorts the
    requests, runs the loop and turns an invalid result into a fatal exit. */
module Allocation {
  import opened Results
  import opened Bits
  import opened Addressing
  import opened Params
  import opened Sizing
  import opened Ordering

  /** The loop's variables between iterations: `nextNetwork`, the subnets
      appended so far, and `valid`. */
  datatype LoopState = LoopState(cursor: Network, subnets: seq<Subnet>, valid: bool)

  /** The two results of `CalcVLSM`. */
  datatype Allocated = Allocated(subnets: seq<Subnet>, valid: bool)

  /** The state before the first iteration: the cursor is the parent network itself. */
  function Initial(parent: Network): LoopState {
    LoopState(parent, [], true)
  }

  /** The block the loop sizes at the current cursor. */
  function Candidate(st: LoopState, numberOfHosts: Uint32): Result<Subnet> {
    CalcSubnet(st.cursor, numberOfHosts)
  }

  /** One iteration of the loop. An accepted candidate is appended and the
      cursor moves to the address after its broadcast, keeping the candidate's
      mask (the second `CalcMask` reproduces it and cannot fail); a rejected
      one is skipped and leaves the cursor where it was. `valid` is
      overwritten either way. */
  function Step(parent: Network, st: LoopState, numberOfHosts: Uint32): (r: Result<LoopState>)
    requires 1 <= parent.prefix
    ensures r.Err? <==> Candidate(st, numberOfHosts).Err?
    ensures r.Err? ==> r.error == Candidate(st, numberOfHosts).error
    ensures r.Ok? ==>
      var c := Candidate(st, numberOfHosts).value;
      && r.value.valid == NetworkHasAddress(parent, c.broadcast)
      && (r.value.valid ==>
            && r.value.subnets == st.subnets + [c]
            && r.value.cursor == Network(CalcAddress(c.broadcast, 1), c.network.prefix))
      && (!r.value.valid ==> r.value.subnets == st.subnets && r.value.cursor == st.cursor)
  {
    var subnet :- CalcSubnet(st.cursor, numberOfHosts);
    var valid := NetworkHasAddress(parent, subnet.broadcast);
    if valid then
      CalcMaskIdempotent(st.cursor.prefix, numberOfHosts);
      var mask := CalcMask(subnet.network.prefix, numberOfHosts).value;
      Ok(LoopState(Network(CalcAddress(subnet.broadcast, 1), mask), st.subnets + [subnet], true))
    else
      Ok(st.(valid := false))
  }

  /** The subnet is exactly the block `CalcSubnet` sizes for this request at
      the subnet's own address. */
  predicate Serves(s: Subnet, p: SubnetParams) {
    CalcSubnet(s.network, RequestHosts(p)) == Ok(s)
  }

  /** The subnets serve distinct requests, in the requests' order: the
      subnets are an in-order selection of the requests' blocks. */
  predicate ServedInOrder(subnets: seq<Subnet>, reqs: seq<SubnetParams>)
    decreases |reqs|
  {
    if |subnets| == 0 then true
    else if |reqs| == 0 then false
    else
      || (Serves(subnets[0], reqs[0]) && ServedInOrder(subnets[1..], reqs[1..]))
      || ServedInOrder(subnets, reqs[1..])
  }

  /** An in-order selection never has more subnets than there are requests. */
  lemma {:induction false} ServedInOrderLength(subnets: seq<Subnet>, reqs: seq<SubnetParams>)
    requires ServedInOrder(subnets, reqs)
    ensures |subnets| <= |reqs|
    decreases |reqs|
  {
    if |subnets| > 0 {
      if Serves(subnets[0], reqs[0]) && ServedInOrder(subnets[1..], reqs[1..]) {
        ServedInOrderLength(subnets[1..], reqs[1..]);
      } else {
        ServedInOrderLength(subnets, reqs[1..]);
      }
    }
  }

  /** A selection as long as the requests skips none of them: subnet `i`
      serves request `i`. */
  lemma {:induction false} ServedInOrderFull(subnets: seq<Subnet>, reqs: seq<SubnetParams>)
    requires ServedInOrder(subnets, reqs) && |subnets| == |reqs|
    ensures forall i :: 0 <= i < |reqs| ==> Serves(subnets[i], reqs[i])
    decreases |reqs|
  {
    if |reqs| > 0 {
      if ServedInOrder(subnets, reqs[1..]) {
        ServedInOrderLength(subnets, reqs[1..]);
        assert false;
      }
      ServedInOrderFull(subnets[1..], reqs[1..]);
      forall i | 0 <= i < |reqs|
        ensures Serves(subnets[i], reqs[i])
      {
        if i > 0 {
          assert subnets[1..][i - 1] == subnets[i];
          assert reqs[1..][i - 1] == reqs[i];
        }
      }
    }
  }

  /** Every subnet's broadcast address passes the boundary test. */
  predicate WithinBoundary(parent: Network, subnets: seq<Subnet>)
    requires 1 <= parent.prefix
  {
    forall k :: 0 <= k < |subnets| ==> subnets[k].broadcast <= CalcBoundary(parent)
  }

  /** Each subnet starts at the address after the previous one's broadcast. */
  predicate Contiguous(subnets: seq<Subnet>) {
    forall k :: 1 <= k < |subnets| ==> subnets[k].network.address == CalcAddress(subnets[k - 1].broadcast, 1)
  }

  /** The subnets run contiguously from the parent's address up to the cursor. */
  predicate Chained(parent: Network, st: LoopState) {
    && Contiguous(st.subnets)
    && (|st.subnets| == 0 ==> st.cursor.address == parent.address)
    && (|st.subnets| > 0 ==>
          && st.subnets[0].network.address == parent.address
          && st.cursor.address == CalcAddress(st.subnets[|st.subnets| - 1].broadcast, 1))
  }

  /** The loop from some state over the remaining requests. */
  function Run(parent: Network, st: LoopState, reqs: seq<SubnetParams>): (r: Result<LoopState>)
    requires 1 <= parent.prefix
    ensures |reqs| == 0 ==> r == Ok(st)
    ensures r.Err? ==> r.error == NetworkNotBigEnough || r.error == ParseIntRange
    ensures r.Ok? ==> |st.subnets| <= |r.value.subnets| <= |st.subnets| + |reqs|
    decreases |reqs|
  {
    if |reqs| == 0 then Ok(st)
    else
      var next :- Step(parent, st, RequestHosts(reqs[0]));
      Run(parent, next, reqs[1..])
  }

  /** Unfolds one iteration of `Run`. */
  lemma {:induction false} RunCons(parent: Network, st: LoopState, reqs: seq<SubnetParams>)
    requires 1 <= parent.prefix && |reqs| > 0
    ensures Run(parent, st, reqs) ==
      if Step(parent, st, RequestHosts(reqs[0])).Ok?
      then Run(parent, Step(parent, st, RequestHosts(reqs[0])).value, reqs[1..])
      else Step(parent, st, RequestHosts(reqs[0]))
  {
  }

  /** What the loop keeps true: the new subnets serve the requests in order,
      each passed the boundary test, and they follow on from one another. */
  lemma {:induction false} RunInvariants(parent: Network, st: LoopState, reqs: seq<SubnetParams>)
    requires 1 <= parent.prefix
    requires Run(parent, st, reqs).Ok?
    ensures st.subnets <= Run(parent, st, reqs).value.subnets
    ensures ServedInOrder(Run(parent, st, reqs).value.subnets[|st.subnets|..], reqs)
    ensures WithinBoundary(parent, st.subnets) ==> WithinBoundary(parent, Run(parent, st, reqs).value.subnets)
    ensures Chained(parent, st) ==> Chained(parent, Run(parent, st, reqs).value)
    decreases |reqs|
  {
    if |reqs| == 0 {
      assert Run(parent, st, reqs).value.subnets[|st.subnets|..] == [];
    } else {
      RunCons(parent, st, reqs);
      var next := Step(parent, st, RequestHosts(reqs[0])).value;
      var last := Run(parent, next, reqs[1..]).value;
      StepKeeps(parent, st, RequestHosts(reqs[0]), next);
      RunInvariants(parent, next, reqs[1..]);
      ServedStep(parent, st, next, last, reqs);
    }
  }

  lemma {:induction false} StepKeeps(parent: Network, st: LoopState, n: Uint32, next: LoopState)
    requires 1 <= parent.prefix
    requires Step(parent, st, n) == Ok(next)
    ensures st.subnets <= next.subnets
    ensures WithinBoundary(parent, st.subnets) ==> WithinBoundary(parent, next.subnets)
    ensures Chained(parent, st) ==> Chained(parent, next)
  {
    var c := StepShape(parent, st, n, next);
    if next.valid {
      AppendKeeps(parent, st, c, next);
    }
  }

  /** What an iteration that does not fail leaves behind, as plain facts
      about the candidate it sized. */
  lemma {:induction false} StepShape(parent: Network, st: LoopState, n: Uint32, next: LoopState) returns (c: Subnet)
    requires 1 <= parent.prefix
    requires Step(parent, st, n) == Ok(next)
    ensures next.valid ==>
      && next.subnets == st.subnets + [c]
      && c.broadcast <= CalcBoundary(parent)
      && c.network.address == st.cursor.address
      && next.cursor.address == CalcAddress(c.broadcast, 1)
    ensures !next.valid ==> next.subnets == st.subnets && next.cursor == st.cursor
  {
    c := Candidate(st, n).value;
  }

  lemma {:induction false} AppendKeeps(parent: Network, st: LoopState, c: Subnet, next: LoopState)
    requires 1 <= parent.prefix
    requires next.subnets == st.subnets + [c]
    requires c.broadcast <= CalcBoundary(parent)
    requires c.network.address == st.cursor.address
    requires next.cursor.address == CalcAddress(c.broadcast, 1)
    ensures st.subnets <= next.subnets
    ensures WithinBoundary(parent, st.subnets) ==> WithinBoundary(parent, next.subnets)
    ensures Chained(parent, st) ==> Chained(parent, next)
  {
    assert next.subnets[|next.subnets| - 1] == c;
    if Chained(parent, st) {
      if |st.subnets| == 0 {
        assert next.subnets[0] == c;
      } else {
        assert next.subnets[0] == st.subnets[0];
      }
    }
  }

  lemma {:induction false} ServedStep(parent: Network, st: LoopState, next: LoopState, last: LoopState, reqs: seq<SubnetParams>)
    requires 1 <= parent.prefix && |reqs| > 0
    requires Step(parent, st, RequestHosts(reqs[0])) == Ok(next)
    requires next.subnets <= last.subnets
    requires ServedInOrder(last.subnets[|next.subnets|..], reqs[1..])
    ensures ServedInOrder(last.subnets[|st.subnets|..], reqs)
  {
    var rest := last.subnets[|st.subnets|..];
    if next.valid {
      var c := Candidate(st, RequestHosts(reqs[0])).value;
      CalcSubnetFixedPoint(st.cursor, RequestHosts(reqs[0]));
      assert rest[0] == c;
      assert rest[1..] == last.subnets[|next.subnets|..];
    } else {
      assert rest == last.subnets[|next.subnets|..];
    }
  }

  /** `CalcVLSM`. */
  function CalcVLSM(parent: Network, reqs: seq<SubnetParams>): (r: Result<Allocated>)
    requires 1 <= parent.prefix
    ensures |reqs| == 0 ==> r == Ok(Allocated([], true))
    ensures r.Err? ==> r.error == NetworkNotBigEnough || r.error == ParseIntRange
    ensures r.Ok? ==> |r.value.subnets| <= |reqs|
    ensures r.Ok? ==> ServedInOrder(r.value.subnets, reqs)
    ensures r.Ok? ==> WithinBoundary(parent, r.value.subnets)
    ensures r.Ok? ==> Contiguous(r.value.subnets)
    ensures r.Ok? && |r.value.subnets| > 0 ==> r.value.subnets[0].network.address == parent.address
  {
    var last :- Run(parent, Initial(parent), reqs);
    RunInvariants(parent, Initial(parent), reqs);
    assert last.subnets[0..] == last.subnets;
    Ok(Allocated(last.subnets, last.valid))
  }

  /** Running over `a + b` is running over `a`, then over `b` from where `a` left off. */
  lemma {:induction false} RunAppend(parent: Network, st: LoopState, a: seq<SubnetParams>, b: seq<SubnetParams>)
    requires 1 <= parent.prefix
    ensures Run(parent, st, a + b) ==
      if Run(parent, st, a).Ok? then Run(parent, Run(parent, st, a).value, b) else Run(parent, st, a)
    decreases |a|
  {
    if |a| == 0 {
      assert a + b == b;
    } else {
      assert (a + b)[0] == a[0] && (a + b)[1..] == a[1..] + b;
      match Step(parent, st, RequestHosts(a[0]))
      case Err(_) =>
      case Ok(next) => RunAppend(parent, next, a[1..], b);
    }
  }

  lemma {:induction false} RunOne(parent: Network, st: LoopState, p: SubnetParams)
    requires 1 <= parent.prefix
    ensures Run(parent, st, [p]) == Step(parent, st, RequestHosts(p))
  {
    assert [p][0] == p && [p][1..] == [];
  }

  /** `valid` is the boundary test of the last request alone: whatever
      happened to earlier requests, the flag reports whether the last
      candidate's broadcast passed `NetworkHasAddress`. */
  lemma {:induction false} ValidIsLastCheck(parent: Network, reqs: seq<SubnetParams>, last: SubnetParams)
    requires 1 <= parent.prefix
    requires CalcVLSM(parent, reqs + [last]).Ok?
    ensures
      var before := Run(parent, Initial(parent), reqs);
      && before.Ok?
      && Candidate(before.value, RequestHosts(last)).Ok?
      && CalcVLSM(parent, reqs + [last]).value.valid ==
           NetworkHasAddress(parent, Candidate(before.value, RequestHosts(last)).value.broadcast)
  {
    CalcVLSMIsRun(parent, reqs + [last]);
    RunSnoc(parent, Initial(parent), reqs, last);
  }

  /** `CalcVLSM` reports what the loop run from the initial state ends with. */
  lemma {:induction false} CalcVLSMIsRun(parent: Network, reqs: seq<SubnetParams>)
    requires 1 <= parent.prefix
    ensures CalcVLSM(parent, reqs).Ok? <==> Run(parent, Initial(parent), reqs).Ok?
    ensures CalcVLSM(parent, reqs).Ok? ==> CalcVLSM(parent, reqs).value.valid == Run(parent, Initial(parent), reqs).value.valid
  {
  }

  /** The last iteration of a successful run starts where the run over the
      earlier requests ended. */
  lemma {:induction false} RunSnoc(parent: Network, st: LoopState, reqs: seq<SubnetParams>, last: SubnetParams)
    requires 1 <= parent.prefix
    requires Run(parent, st, reqs + [last]).Ok?
    ensures Run(parent, st, reqs).Ok?
    ensures Run(parent, st, reqs + [last]) == Step(parent, Run(parent, st, reqs).value, RequestHosts(last))
  {
    RunAppend(parent, st, reqs, [last]);
    if Run(parent, st, reqs).Ok? {
      RunOne(parent, Run(parent, st, reqs).value, last);
    }
  }

  /** An iteration never reads the incoming `valid`. */
  lemma {:induction false} StepIgnoresValid(parent: Network, st: LoopState, v: bool, n: Uint32)
    requires 1 <= parent.prefix
    ensures Step(parent, st.(valid := v), n) == Step(parent, st, n)
  {
  }

  /** A run's subnets do not depend on the incoming `valid`, and over a
      non-empty list nothing of its result does. */
  lemma {:induction false} RunIgnoresValid(parent: Network, st: LoopState, v: bool, reqs: seq<SubnetParams>)
    requires 1 <= parent.prefix
    ensures Run(parent, st.(valid := v), reqs).Ok? == Run(parent, st, reqs).Ok?
    ensures Run(parent, st, reqs).Ok? ==>
      Run(parent, st.(valid := v), reqs).value.subnets == Run(parent, st, reqs).value.subnets
    ensures |reqs| > 0 ==> Run(parent, st.(valid := v), reqs) == Run(parent, st, reqs)
  {
    if |reqs| > 0 {
      RunCons(parent, st.(valid := v), reqs);
      RunCons(parent, st, reqs);
      StepIgnoresValid(parent, st, v, RequestHosts(reqs[0]));
    }
  }

  /** A run only ever appends to the subnets it starts with. */
  lemma {:induction false} RunExtends(parent: Network, st: LoopState, reqs: seq<SubnetParams>)
    requires 1 <= parent.prefix
    requires Run(parent, st, reqs).Ok?
    ensures st.subnets <= Run(parent, st, reqs).value.subnets
    decreases |reqs|
  {
    if |reqs| > 0 {
      RunCons(parent, st, reqs);
      var next := Step(parent, st, RequestHosts(reqs[0])).value;
      var c := StepShape(parent, st, RequestHosts(reqs[0]), next);
      RunExtends(parent, next, reqs[1..]);
    }
  }

  /** The first iteration of a run over `[p] + b`: an accepted candidate is
      the next subnet of the final result; a rejected one leaves the run to
      go on over `b` from the same cursor and subnets. */
  lemma {:induction false} RunVisitsFirst(parent: Network, st: LoopState, p: SubnetParams, b: seq<SubnetParams>)
    requires 1 <= parent.prefix
    requires Run(parent, st, [p] + b).Ok?
    ensures Candidate(st, RequestHosts(p)).Ok?
    ensures
      var c := Candidate(st, RequestHosts(p)).value;
      var fin := Run(parent, st, [p] + b).value;
      && (NetworkHasAddress(parent, c.broadcast) ==>
            && |st.subnets| < |fin.subnets|
            && fin.subnets[|st.subnets|] == c)
      && (!NetworkHasAddress(parent, c.broadcast) ==>
            Run(parent, st, [p] + b) == Run(parent, st.(valid := false), b))
  {
    var rest := [p] + b;
    assert rest[0] == p && rest[1..] == b;
    RunCons(parent, st, rest);
    var next := Step(parent, st, RequestHosts(p)).value;
    if next.valid {
      RunExtends(parent, next, b);
      assert next.subnets[|st.subnets|] == Candidate(st, RequestHosts(p)).value;
    } else {
      assert next == st.(valid := false);
    }
  }

  /** A run over `a + c` that does not fail passes through the state the
      run over `a` ends in. */
  lemma {:induction false} RunThrough(parent: Network, st: LoopState, a: seq<SubnetParams>, c: seq<SubnetParams>)
    requires 1 <= parent.prefix
    requires Run(parent, st, a + c).Ok?
    ensures Run(parent, st, a).Ok?
    ensures Run(parent, st, a + c) == Run(parent, Run(parent, st, a).value, c)
  {
    RunAppend(parent, st, a, c);
  }

  /** What `CalcVLSM` does with the request `p` met after the requests `a`,
      once the loop has found the subnets of `CalcVLSM(parent, a)`: a
      candidate that passes the boundary test is appended as the next subnet;
      one that fails it is skipped, leaving the subnets of the same requests
      without `p` (and, unless `p` was last, the whole result). */
  lemma {:induction false} CalcVLSMAcceptsOrSkips(parent: Network, a: seq<SubnetParams>, p: SubnetParams, b: seq<SubnetParams>)
    requires 1 <= parent.prefix
    requires CalcVLSM(parent, a + ([p] + b)).Ok?
    ensures Run(parent, Initial(parent), a).Ok?
    ensures CalcVLSM(parent, a).Ok?
    ensures CalcVLSM(parent, a).value.subnets == Run(parent, Initial(parent), a).value.subnets
    ensures Candidate(Run(parent, Initial(parent), a).value, RequestHosts(p)).Ok?
    ensures
      var found := CalcVLSM(parent, a).value.subnets;
      var c := Candidate(Run(parent, Initial(parent), a).value, RequestHosts(p)).value;
      var r := CalcVLSM(parent, a + ([p] + b)).value;
      && (NetworkHasAddress(parent, c.broadcast) ==>
            |found| < |r.subnets| && r.subnets[|found|] == c)
      && (!NetworkHasAddress(parent, c.broadcast) ==>
            && CalcVLSM(parent, a + b).Ok?
            && r.subnets == CalcVLSM(parent, a + b).value.subnets
            && (|b| > 0 ==> r == CalcVLSM(parent, a + b).value))
  {
    var init := Initial(parent);
    RunThrough(parent, init, a, [p] + b);
    var mid := Run(parent, init, a).value;
    RunVisitsFirst(parent, mid, p, b);
    RunAppend(parent, init, a, b);
    RunIgnoresValid(parent, mid, false, b);
  }

  lemma {:induction false} SizesHeadTail(a: seq<SubnetParams>, b: seq<SubnetParams>)
    requires |a| > 0 && Sizes(a) == Sizes(b)
    ensures RequestHosts(a[0]) == RequestHosts(b[0])
    ensures Sizes(a[1..]) == Sizes(b[1..])
  {
    assert Sizes(a) == [a[0].size] + Sizes(a[1..]);
    assert Sizes(b) == [b[0].size] + Sizes(b[1..]);
    assert a[0].size == Sizes(a)[0] == Sizes(b)[0] == b[0].size;
    assert Sizes(a[1..]) == Sizes(a)[1..] == Sizes(b)[1..] == Sizes(b[1..]);
  }

  /** The loop reads nothing of a request but its size. */
  lemma {:induction false} SizesDetermineRun(parent: Network, st: LoopState, a: seq<SubnetParams>, b: seq<SubnetParams>)
    requires 1 <= parent.prefix
    requires Sizes(a) == Sizes(b)
    ensures Run(parent, st, a) == Run(parent, st, b)
    decreases |a|
  {
    if |a| > 0 {
      SizesHeadTail(a, b);
      RunCons(parent, st, a);
      RunCons(parent, st, b);
      var step := Step(parent, st, RequestHosts(a[0]));
      if step.Ok? {
        SizesDetermineRun(parent, step.value, a[1..], b[1..]);
      }
    }
  }

  /** The type byte has no effect: requests that agree on their sizes are
      allocated identically. */
  lemma {:induction false} TypeByteIgnored(parent: Network, a: seq<SubnetParams>, b: seq<SubnetParams>)
    requires 1 <= parent.prefix
    requires |a| == |b|
    requires forall i :: 0 <= i < |a| ==> a[i].size == b[i].size
    ensures CalcVLSM(parent, a) == CalcVLSM(parent, b)
  {
    SizesEqual(a, b);
    SizesDetermineRun(parent, Initial(parent), a, b);
  }

  /** The unstable sort does no harm: any two orders `sort.Sort` may produce
      for the same requests give the same allocation. */
  lemma {:induction false} TieOrderIrrelevant(parent: Network, a: seq<SubnetParams>, b: seq<SubnetParams>)
    requires 1 <= parent.prefix
    requires SortedByLess(a) && SortedByLess(b)
    requires multiset(a) == multiset(b)
    ensures CalcVLSM(parent, a) == CalcVLSM(parent, b)
  {
    TiedOrdersAgreeOnSizes(a, b);
    SizesDetermineRun(parent, Initial(parent), a, b);
  }

  /** After any iteration the cursor's mask still leaves room for every
      request no larger than the one just processed. */
  lemma {:induction false} StepKeepsRoom(parent: Network, st: LoopState, n0: Uint32, n1: Uint32, next: LoopState)
    requires 1 <= parent.prefix
    requires 1 <= n1 <= n0
    requires Step(parent, st, n0) == Ok(next)
    ensures CalcMask(next.cursor.prefix, n1).Ok?
  {
    var q := CalcMask(st.cursor.prefix, n0).value;
    if next.valid {
      CalcMaskIdempotent(st.cursor.prefix, n0);
      CalcMaskMonotone(q, n1, n0);
    } else {
      CalcMaskMonotone(st.cursor.prefix, n1, n0);
    }
  }

  lemma {:induction false} SortedTail(reqs: seq<SubnetParams>)
    requires |reqs| > 0 && Descending(reqs) && AllValid(reqs)
    ensures Descending(reqs[1..]) && AllValid(reqs[1..])
    ensures ValidSubnetParams(reqs[0])
    ensures |reqs| > 1 ==> reqs[1].size <= reqs[0].size && ValidSubnetParams(reqs[1])
  {
    assert ValidSubnetParams(reqs[0]);
    if |reqs| > 1 {
      assert ValidSubnetParams(reqs[1]);
    }
  }

  /** An iteration is fatal only through the mask or the pool size. */
  lemma {:induction false} StepOk(parent: Network, st: LoopState, n: Uint32)
    requires 1 <= parent.prefix
    requires CalcMask(st.cursor.prefix, n).Ok? && CalcPoolSize(n).Ok?
    ensures Step(parent, st, n).Ok?
  {
  }

  lemma {:induction false} SortedRunSucceeds(parent: Network, st: LoopState, reqs: seq<SubnetParams>)
    requires 1 <= parent.prefix
    requires Descending(reqs) && AllValid(reqs)
    requires |reqs| > 0 ==> CalcMask(st.cursor.prefix, RequestHosts(reqs[0])).Ok?
    ensures Run(parent, st, reqs).Ok?
    decreases |reqs|
  {
    if |reqs| > 0 {
      RunCons(parent, st, reqs);
      SortedTail(reqs);
      var n0 := RequestHosts(reqs[0]);
      PoolSizeCoversRequest(reqs[0]);
      StepOk(parent, st, n0);
      var next := Step(parent, st, n0).value;
      if |reqs| > 1 {
        PoolSizeCoversRequest(reqs[1]);
        StepKeepsRoom(parent, st, n0, RequestHosts(reqs[1]), next);
      }
      SortedRunSucceeds(parent, next, reqs[1..]);
    }
  }

  /** On sorted input the only fatal exit is the mask of the first (largest)
      request: it fails exactly when that request plus network and broadcast
      addresses does not fit below the parent's block size. */
  lemma {:induction false} SortedFailsOnlyAtFirst(parent: Network, reqs: seq<SubnetParams>)
    requires 1 <= parent.prefix
    requires SortedByLess(reqs) && AllValid(reqs)
    ensures CalcVLSM(parent, reqs).Err? <==> |reqs| > 0 && BlockSize(parent.prefix) <= reqs[0].size + 2
    ensures CalcVLSM(parent, reqs).Err? ==> CalcVLSM(parent, reqs).error == NetworkNotBigEnough
  {
    SortedByLessIsDescending(reqs);
    var run := Run(parent, Initial(parent), reqs);
    assert CalcVLSM(parent, reqs).Err? <==> run.Err?;
    assert run.Err? ==> CalcVLSM(parent, reqs).error == run.error;
    if |reqs| > 0 {
      SortedTail(reqs);
      PoolSizeCoversRequest(reqs[0]);
      var n0 := RequestHosts(reqs[0]);
      if CalcMask(parent.prefix, n0).Ok? {
        SortedRunSucceeds(parent, Initial(parent), reqs);
      } else {
        RunCons(parent, Initial(parent), reqs);
        assert run == Step(parent, Initial(parent), n0);
      }
    }
  }

  /** The end of `main`'s engine part: a last `valid` of false is fatal. */
  function Finish(r: Result<Allocated>): Result<seq<Subnet>> {
    match r
    case Err(e) => Err(e)
    case Ok(a) => if a.valid then Ok(a.subnets) else Err(NetworkNotBigEnough)
  }

  lemma {:induction false} PermutationKeepsValid(a: seq<SubnetParams>, b: seq<SubnetParams>)
    requires multiset(a) == multiset(b) && AllValid(b)
    ensures AllValid(a)
  {
    forall i | 0 <= i < |a|
      ensures ValidSubnetParams(a[i])
    {
      assert a[i] in multiset(b);
    }
  }

  /** What the end of `main` reports for requests in sorted order. */
  lemma {:induction false} FinishSorted(parent: Network, sorted: seq<SubnetParams>)
    requires 1 <= parent.prefix
    requires SortedByLess(sorted) && AllValid(sorted)
    ensures
      var r := Finish(CalcVLSM(parent, sorted));
      && (r.Err? ==> r.error == NetworkNotBigEnough)
      && (r.Ok? ==> |r.value| <= |sorted| && WithinBoundary(parent, r.value) && ServedInOrder(r.value, sorted))
  {
    SortedFailsOnlyAtFirst(parent, sorted);
  }

  /** The addresses a request's block takes: the pool plus the network and
      broadcast addresses, a power of two. */
  function Span(p: SubnetParams): nat {
    Pow2(PoolHostBits(RequestHosts(p)))
  }

  lemma {:induction false} SpanIsBlock(p: SubnetParams)
    requires ValidSubnetParams(p)
    ensures CalcPoolSize(RequestHosts(p)).Ok?
    ensures CalcPoolSize(RequestHosts(p)).value + 2 == Span(p)
  {
    PoolSizeCoversRequest(p);
  }

  /** The pool's host bits grow with the host count. */
  lemma {:induction false} PoolHostBitsMonotone(m: Uint32, n: Uint32)
    requires 1 <= m <= n
    ensures PoolHostBits(m) <= PoolHostBits(n)
  {
    Wrap32Small(m - 1);
    Wrap32Small(n - 1);
    BitLengthMonotone(m - 1, n - 1);
  }

  /** A smaller request's span divides a larger one's. */
  lemma {:induction false} SpanDivides(p: SubnetParams, q: SubnetParams)
    requires ValidSubnetParams(p) && ValidSubnetParams(q) && q.size <= p.size
    ensures 1 <= Span(q) <= Span(p)
    ensures Span(p) % Span(q) == 0
  {
    PoolSizeCoversRequest(p);
    PoolSizeCoversRequest(q);
    PoolHostBitsMonotone(RequestHosts(q), RequestHosts(p));
    Pow2Multiple(PoolHostBits(RequestHosts(q)), PoolHostBits(RequestHosts(p)));
  }

  /** A request that fits below the parent's block size spans at most that
      block, and the block is a multiple of its span. */
  lemma {:induction false} SpanFitsParent(p: SubnetParams, prefix: Prefix)
    requires ValidSubnetParams(p) && p.size + 2 < BlockSize(prefix)
    ensures 1 <= Span(p) <= BlockSize(prefix)
    ensures BlockSize(prefix) % Span(p) == 0
  {
    var n := RequestHosts(p);
    Wrap32Small(p.size + 2);
    Wrap32Small(n - 1);
    if prefix == 32 {
      assert false;
    }
    BitLengthFits(n - 1, 32 - prefix);
    assert PoolHostBits(n) <= 32 - prefix;
    Pow2Multiple(PoolHostBits(n), 32 - prefix);
  }

  lemma {:induction false} SpanDividesBlock(p: SubnetParams, prefix: Prefix)
    requires Span(p) <= BlockSize(prefix)
    ensures BlockSize(prefix) % Span(p) == 0
  {
    var k := PoolHostBits(RequestHosts(p));
    Pow2Divides(k, 32 - prefix);
    Pow2Multiple(k, 32 - prefix);
  }

  /** One iteration on a checked request, as plain facts about its candidate:
      it starts at the cursor, its pool and the two reserved addresses fill
      the request's span, and unless the span runs past 255.255.255.255 its
      broadcast address ends it. */
  lemma {:induction false} StepFacts(parent: Network, st: LoopState, p: SubnetParams, next: LoopState) returns (c: Subnet)
    requires 1 <= parent.prefix && ValidSubnetParams(p)
    requires Step(parent, st, RequestHosts(p)) == Ok(next)
    ensures c.network.address == st.cursor.address
    ensures c.poolSize + 2 == Span(p)
    ensures st.cursor.address + c.poolSize + 1 < Two32 ==> c.broadcast == st.cursor.address + c.poolSize + 1
    ensures next.valid == (c.broadcast <= CalcBoundary(parent))
    ensures next.valid ==> next.subnets == st.subnets + [c] && next.cursor.address == CalcAddress(c.broadcast, 1)
    ensures !next.valid ==> next.subnets == st.subnets && next.cursor == st.cursor
  {
    c := Candidate(st, RequestHosts(p)).value;
  }

  /** While the parent has room for the request's span, the candidate is
      accepted and the cursor moves on by that span. */
  lemma {:induction false} AcceptedWhileRoom(parent: Network, st: LoopState, p: SubnetParams, next: LoopState, off: nat)
    requires 1 <= parent.prefix && Masked(parent) && ValidSubnetParams(p)
    requires off + Span(p) <= BlockSize(parent.prefix)
    requires st.cursor.address == parent.address + off
    requires Step(parent, st, RequestHosts(p)) == Ok(next)
    ensures next.valid && |next.subnets| == |st.subnets| + 1
    ensures parent.address + BlockSize(parent.prefix) < Two32 ==> next.cursor.address == parent.address + (off + Span(p))
  {
    var c := StepFacts(parent, st, p, next);
    MaskedEnd(parent);
  }

  /** The offset leaves the next request's whole span inside the parent's
      block and sits on a multiple of that span. */
  predicate AlignedFor(reqs: seq<SubnetParams>, prefix: Prefix, off: nat) {
    |reqs| > 0 ==> Span(reqs[0]) <= BlockSize(prefix) && Aligned(off, Span(reqs[0]))
  }

  /** Along requests sorted by size, an aligned offset with room left stays
      aligned for the next request once this one's span is added. */
  lemma {:induction false} NextAligned(reqs: seq<SubnetParams>, prefix: Prefix, off: nat) returns (off': nat)
    requires Descending(reqs) && AllValid(reqs) && |reqs| > 0
    requires AlignedFor(reqs, prefix, off) && off < BlockSize(prefix)
    ensures Descending(reqs[1..]) && AllValid(reqs[1..]) && ValidSubnetParams(reqs[0])
    ensures off' == off + Span(reqs[0]) && off' <= BlockSize(prefix)
    ensures AlignedFor(reqs[1..], prefix, off')
  {
    off' := off + Span(reqs[0]);
    SortedTail(reqs);
    if |reqs| > 1 {
      SpanAdvance(reqs[0], reqs[1], prefix, off);
      assert reqs[1..][0] == reqs[1];
    } else {
      SpanRoom(reqs[0], prefix, off);
    }
  }

  /** An aligned offset with room takes a whole span and stays aligned for
      the next, no larger, span. */
  lemma {:induction false} SpanAdvance(p: SubnetParams, q: SubnetParams, prefix: Prefix, off: nat)
    requires ValidSubnetParams(p) && ValidSubnetParams(q) && q.size <= p.size
    requires Span(p) <= BlockSize(prefix) && Aligned(off, Span(p)) && off < BlockSize(prefix)
    ensures off + Span(p) <= BlockSize(prefix)
    ensures Span(q) <= BlockSize(prefix) && Aligned(off + Span(p), Span(q))
  {
    SpanDividesBlock(p, prefix);
    SpanDivides(p, q);
    AlignedAdvance(off, Span(p), Span(q), BlockSize(prefix));
  }

  lemma {:induction false} SpanRoom(p: SubnetParams, prefix: Prefix, off: nat)
    requires Span(p) <= BlockSize(prefix) && Aligned(off, Span(p)) && off < BlockSize(prefix)
    ensures off + Span(p) <= BlockSize(prefix)
  {
    SpanDividesBlock(p, prefix);
    AlignedIsMod(off, Span(p));
    AlignedRoom(off, Span(p), BlockSize(prefix));
  }

  /** One accepted iteration of the sorted loop while the parent has room. */
  lemma {:induction false} AlignedStep(parent: Network, st: LoopState, reqs: seq<SubnetParams>, off: nat) returns (next: LoopState, off': nat)
    requires 1 <= parent.prefix && Masked(parent)
    requires parent.address + BlockSize(parent.prefix) < Two32
    requires Descending(reqs) && AllValid(reqs) && |reqs| > 0
    requires AlignedFor(reqs, parent.prefix, off)
    requires off < BlockSize(parent.prefix) && st.cursor.address == parent.address + off
    requires Run(parent, st, reqs).Ok?
    ensures Run(parent, st, reqs) == Run(parent, next, reqs[1..])
    ensures next.valid && |next.subnets| == |st.subnets| + 1
    ensures Descending(reqs[1..]) && AllValid(reqs[1..])
    ensures off' == off + Span(reqs[0]) && off' <= BlockSize(parent.prefix)
    ensures next.cursor.address == parent.address + off'
    ensures AlignedFor(reqs[1..], parent.prefix, off')
  {
    RunCons(parent, st, reqs);
    next := Step(parent, st, RequestHosts(reqs[0])).value;
    off' := NextAligned(reqs, parent.prefix, off);
    AcceptedWhileRoom(parent, st, reqs[0], next, off);
  }

  /** Once the cursor sits right after the end of a parent that does not end
      at 255.255.255.255, every further request is rejected and `valid` ends
      false. */
  lemma {:induction false} FullParentRejects(parent: Network, st: LoopState, reqs: seq<SubnetParams>)
    requires 1 <= parent.prefix && Masked(parent)
    requires parent.address + BlockSize(parent.prefix) < Two32
    requires Descending(reqs) && AllValid(reqs)
    requires |reqs| > 0 && Span(reqs[0]) <= BlockSize(parent.prefix)
    requires st.cursor.address == parent.address + BlockSize(parent.prefix)
    requires Run(parent, st, reqs).Ok?
    ensures !Run(parent, st, reqs).value.valid
    ensures Run(parent, st, reqs).value.subnets == st.subnets
    decreases |reqs|
  {
    var b := BlockSize(parent.prefix);
    MaskedEnd(parent);
    RunCons(parent, st, reqs);
    SortedTail(reqs);
    var next := Step(parent, st, RequestHosts(reqs[0])).value;
    var c := StepFacts(parent, st, reqs[0], next);
    assert !next.valid;
    if |reqs| == 1 {
      assert reqs[1..] == [];
    } else {
      SpanDivides(reqs[0], reqs[1]);
      FullParentRejects(parent, next, reqs[1..]);
    }
  }

  /** The sorted loop in a parent that does not end at 255.255.255.255: the
      cursor's offset from the parent's address is a multiple of the next
      request's span, so while the parent has room the next block fits
      entirely and is accepted; once it is full, everything after is
      rejected. A result with `valid` true therefore holds every request. */
  lemma {:induction false} AlignedRunAllOrNothing(parent: Network, st: LoopState, reqs: seq<SubnetParams>, off: nat)
    requires 1 <= parent.prefix && Masked(parent)
    requires parent.address + BlockSize(parent.prefix) < Two32
    requires Descending(reqs) && AllValid(reqs)
    requires AlignedFor(reqs, parent.prefix, off)
    requires off <= BlockSize(parent.prefix) && st.cursor.address == parent.address + off
    requires Run(parent, st, reqs).Ok?
    ensures |reqs| > 0 && Run(parent, st, reqs).value.valid ==>
      |Run(parent, st, reqs).value.subnets| == |st.subnets| + |reqs|
    decreases |reqs|
  {
    if |reqs| > 0 {
      var b := BlockSize(parent.prefix);
      if off == b {
        FullParentRejects(parent, st, reqs);
      } else {
        var next, off' := AlignedStep(parent, st, reqs, off);
        if |reqs| == 1 {
          assert reqs[1..] == [];
        } else {
          AlignedRunAllOrNothing(parent, next, reqs[1..], off');
        }
      }
    }
  }

  /** In a parent that ends at 255.255.255.255 the boundary test passes for
      every address, so every request is accepted. */
  lemma {:induction false} TopParentAcceptsAll(parent: Network, st: LoopState, reqs: seq<SubnetParams>)
    requires 1 <= parent.prefix && CalcBoundary(parent) == Two32 - 1
    requires Run(parent, st, reqs).Ok?
    ensures |Run(parent, st, reqs).value.subnets| == |st.subnets| + |reqs|
    decreases |reqs|
  {
    if |reqs| > 0 {
      RunCons(parent, st, reqs);
      var next := Step(parent, st, RequestHosts(reqs[0])).value;
      var c := StepShape(parent, st, RequestHosts(reqs[0]), next);
      assert next.valid;
      TopParentAcceptsAll(parent, next, reqs[1..]);
    }
  }

  /** On sorted, checked requests in a masked parent, the end of `main` is
      all or nothing: when it does not exit, every request got a subnet. */
  lemma {:induction false} SortedAllOrNothing(parent: Network, sorted: seq<SubnetParams>)
    requires 1 <= parent.prefix
    requires SortedByLess(sorted) && AllValid(sorted)
    ensures Masked(parent) && Finish(CalcVLSM(parent, sorted)).Ok? ==>
      |Finish(CalcVLSM(parent, sorted)).value| == |sorted|
  {
    if Masked(parent) && Finish(CalcVLSM(parent, sorted)).Ok? {
      var init := Initial(parent);
      CalcVLSMIsRun(parent, sorted);
      var run := Run(parent, init, sorted).value;
      assert run.valid && Finish(CalcVLSM(parent, sorted)).value == run.subnets;
      MaskedEnd(parent);
      if parent.address + BlockSize(parent.prefix) == Two32 {
        TopParentAcceptsAll(parent, init, sorted);
      } else if |sorted| > 0 {
        SortedFailsOnlyAtFirst(parent, sorted);
        SortedByLessIsDescending(sorted);
        SortedTail(sorted);
        SpanFitsParent(sorted[0], parent.prefix);
        AlignedRunAllOrNothing(parent, init, sorted, 0);
      }
    }
  }

  /** `main` after the prompts: sort the requests, run `CalcVLSM`, and exit
      with "Network not big enough" when `valid` is false. */
  function Plan(parent: Network, reqs: seq<SubnetParams>): (r: Result<seq<Subnet>>)
    requires 1 <= parent.prefix
    requires ValidRequests(reqs)
    ensures r.Err? ==> r.error == NetworkNotBigEnough
    ensures r.Ok? ==> |r.value| <= |reqs|
    ensures r.Ok? ==> WithinBoundary(parent, r.value)
    ensures r.Ok? ==> ServedInOrder(r.value, SortBySize(reqs))
    ensures r.Err? <==>
      || (|reqs| > 0 && BlockSize(parent.prefix) <= SortBySize(reqs)[0].size + 2)
      || (CalcVLSM(parent, SortBySize(reqs)).Ok? && !CalcVLSM(parent, SortBySize(reqs)).value.valid)
    ensures Masked(parent) && r.Ok? ==> |r.value| == |reqs|
  {
    var sorted := SortBySize(reqs);
    PermutationKeepsValid(sorted, reqs);
    FinishSorted(parent, sorted);
    SortedFailsOnlyAtFirst(parent, sorted);
    SortedAllOrNothing(parent, sorted);
    Finish(CalcVLSM(parent, sorted))
  }

  /** On a masked parent a plan that does not exit hands every request, in
      sorted order, a block of its own. */
  lemma {:induction false} PlanServesEachRequest(parent: Network, reqs: seq<SubnetParams>)
    requires 1 <= parent.prefix && Masked(parent)
    requires ValidRequests(reqs)
    ensures Plan(parent, reqs).Ok? ==>
      && |Plan(parent, reqs).value| == |reqs|
      && forall i :: 0 <= i < |reqs| ==> Serves(Plan(parent, reqs).value[i], SortBySize(reqs)[i])
  {
    if Plan(parent, reqs).Ok? {
      ServedInOrderFull(Plan(parent, reqs).value, SortBySize(reqs));
    }
  }

  /** When the largest request fits the parent, `main` goes on to write its
      report exactly when the last request's candidate, sized where the loop
      over the other requests left the cursor, passes the boundary test. */
  lemma {:induction false} PlanDecidedByLastRequest(parent: Network, reqs: seq<SubnetParams>, front: seq<SubnetParams>, last: SubnetParams)
    requires 1 <= parent.prefix
    requires ValidRequests(reqs)
    requires SortBySize(reqs) == front + [last]
    requires SortBySize(reqs)[0].size + 2 < BlockSize(parent.prefix)
    ensures Run(parent, Initial(parent), front).Ok?
    ensures Candidate(Run(parent, Initial(parent), front).value, RequestHosts(last)).Ok?
    ensures Plan(parent, reqs).Ok? <==>
      NetworkHasAddress(parent, Candidate(Run(parent, Initial(parent), front).value, RequestHosts(last)).value.broadcast)
  {
    var sorted := SortBySize(reqs);
    PermutationKeepsValid(sorted, reqs);
    SortedFailsOnlyAtFirst(parent, sorted);
    ValidIsLastCheck(parent, front, last);
  }

  /** `Plan` does not depend on which descending order the sort picks. */
  lemma {:induction false} PlanIgnoresTieOrder(parent: Network, reqs: seq<SubnetParams>, sorted: seq<SubnetParams>)
    requires 1 <= parent.prefix
    requires ValidRequests(reqs)
    requires SortedByLess(sorted) && multiset(sorted) == multiset(reqs)
    ensures Plan(parent, reqs) == Finish(CalcVLSM(parent, sorted))
  {
    TieOrderIrrelevant(parent, SortBySize(reqs), sorted);
  }
}

=== FILE: bits.dfy ===
/** Unsigned 32-bit arithmetic and the two string round trips the sizing code
    leans on: `fmt.Sprintf("%b", x)` (whose length is the bit length of `x`)
    and `strconv.ParseInt(strings.Repeat("1", b), 2, 32)` (which yields 2^b - 1). */
module Bits {
  import opened Results

  const Two32: nat := 0x1_0000_0000

  /** Go's `uint32`. */
  type Uint32 = x: int | 0 <= x < 0x1_0000_0000

  /** Reinterpret an integer as `uint32`: the wrap-around of Go's unsigned arithmetic. */
  function Wrap32(x: int): Uint32 {
    x % Two32
  }

  lemma {:induction false} Wrap32Small(x: int)
    requires 0 <= x < Two32
    ensures Wrap32(x) == x
  {
  }

  function Pow2(k: nat): (r: nat)
    ensures r >= 1
  {
    if k == 0 then 1 else 2 * Pow2(k - 1)
  }

  lemma {:induction false} Pow2Monotone(a: nat, b: nat)
    requires a <= b
    ensures Pow2(a) <= Pow2(b)
    decreases b
  {
    if a < b {
      Pow2Monotone(a, b - 1);
    }
  }

  lemma {:induction false} Pow2StrictMonotone(a: nat, b: nat)
    requires a < b
    ensures 2 * Pow2(a) <= Pow2(b)
  {
    Pow2Monotone(a + 1, b);
  }

  lemma {:induction false} Pow2Add(a: nat, b: nat)
    ensures Pow2(a + b) == Pow2(a) * Pow2(b)
  {
    if a > 0 {
      Pow2Add(a - 1, b);
    }
  }

  /** A power of two is a multiple of every smaller power of two. */
  lemma {:induction false} Pow2Divides(a: nat, b: nat)
    requires Pow2(a) <= Pow2(b)
    ensures a <= b
    ensures Pow2(b) == Pow2(a) * Pow2(b - a)
  {
    if b < a {
      Pow2StrictMonotone(b, a);
    }
    Pow2Add(a, b - a);
  }

  lemma {:induction false} Pow2Of31And32()
    ensures Pow2(31) == 0x8000_0000
    ensures Pow2(32) == Two32
  {
    assert Pow2(8) == 256;
    Pow2Add(8, 8);
    Pow2Add(16, 15);
    Pow2Add(16, 16);
    assert Pow2(15) * 2 == Pow2(16);
  }

  lemma {:induction false} Pow2UpTo31(k: nat)
    requires 1 <= k <= 31
    ensures 2 <= Pow2(k) <= 0x8000_0000
  {
    Pow2Monotone(1, k);
    Pow2Monotone(k, 31);
    Pow2Of31And32();
  }

  /** Every power of two up to 2^32 has a predecessor that fits in `uint32`. */
  lemma {:induction false} Pow2AtMost32(k: nat)
    requires k <= 32
    ensures Pow2(k) <= Two32
  {
    Pow2Monotone(k, 32);
    Pow2Of31And32();
  }

  predicate IsBinaryDigit(c: char) {
    c == '0' || c == '1'
  }

  predicate IsBinaryDigits(s: seq<char>) {
    forall i :: 0 <= i < |s| ==> IsBinaryDigit(s[i])
  }

  function DigitValue(c: char): nat {
    if c == '1' then 1 else 0
  }

  /** Value of a string of binary digits, most significant first. */
  function BinaryValue(s: seq<char>): nat {
    if |s| == 0 then 0 else 2 * BinaryValue(s[..|s| - 1]) + DigitValue(s[|s| - 1])
  }

  /** `fmt.Sprintf("%b", x)`: binary digits without leading zeros; zero prints as "0". */
  function FormatBinary(x: nat): (s: seq<char>)
    ensures |s| >= 1
    ensures IsBinaryDigits(s)
    ensures x == 0 <==> s == "0"
    ensures x > 0 ==> s[0] == '1'
    decreases x
  {
    if x < 2 then [if x == 0 then '0' else '1'] else FormatBinary(x / 2) + [if x % 2 == 0 then '0' else '1']
  }

  lemma {:induction false} FormatBinaryRoundTrip(x: nat)
    ensures BinaryValue(FormatBinary(x)) == x
    decreases x
  {
    if x >= 2 {
      FormatBinaryRoundTrip(x / 2);
      var s := FormatBinary(x);
      assert s[..|s| - 1] == FormatBinary(x / 2);
    }
  }

  /** `len(fmt.Sprintf("%b", x))`: the bit length of `x`, except that zero takes one digit. */
  function BitLength(x: nat): nat {
    |FormatBinary(x)|
  }

  lemma {:induction false} BitLengthBounds(x: nat)
    ensures BitLength(x) >= 1
    ensures x == 0 ==> BitLength(x) == 1
    ensures x > 0 ==> Pow2(BitLength(x) - 1) <= x < Pow2(BitLength(x))
    decreases x
  {
    if x >= 2 {
      BitLengthBounds(x / 2);
      assert BitLength(x) == BitLength(x / 2) + 1;
    }
  }

  /** The bit length is the unique `k` with 2^(k-1) <= x < 2^k. */
  lemma {:induction false} BitLengthUnique(x: nat, k: nat)
    requires 1 <= k
    requires Pow2(k - 1) <= x < Pow2(k)
    ensures BitLength(x) == k
  {
    BitLengthBounds(x);
    var b := BitLength(x);
    if b < k {
      Pow2Monotone(b, k - 1);
    } else if b > k {
      Pow2Monotone(k, b - 1);
    }
  }

  lemma {:induction false} BitLengthMonotone(x: nat, y: nat)
    requires x <= y
    ensures BitLength(x) <= BitLength(y)
  {
    BitLengthBounds(x);
    BitLengthBounds(y);
    if x > 0 && BitLength(y) < BitLength(x) {
      Pow2Monotone(BitLength(y), BitLength(x) - 1);
    }
  }

  /** A value fits in `k` bits exactly when its bit length is at most `k`. */
  lemma {:induction false} BitLengthFits(x: nat, k: nat)
    requires k >= 1
    ensures BitLength(x) <= k <==> x < Pow2(k)
  {
    BitLengthBounds(x);
    if BitLength(x) <= k {
      Pow2Monotone(BitLength(x), k);
    } else {
      Pow2Monotone(k, BitLength(x) - 1);
    }
  }

  /** `strings.Repeat(string(c), n)`. */
  function Repeat(c: char, n: nat): (s: seq<char>)
    ensures |s| == n
    ensures forall i :: 0 <= i < n ==> s[i] == c
  {
    if n == 0 then [] else Repeat(c, n - 1) + [c]
  }

  lemma {:induction false} RepeatOnesValue(n: nat)
    ensures BinaryValue(Repeat('1', n)) == Pow2(n) - 1
  {
    if n > 0 {
      RepeatOnesValue(n - 1);
      assert Repeat('1', n)[..n - 1] == Repeat('1', n - 1);
    }
  }

  /** `strconv.ParseInt(s, 2, 32)` for unsigned digit strings: a syntax error
      for an empty string or a non-binary digit, a range error for a value
      that a signed 32-bit integer cannot hold. */
  function ParseInt32Base2(s: seq<char>): Result<int> {
    if |s| == 0 || !IsBinaryDigits(s) then Err(ParseIntSyntax)
    else if BinaryValue(s) >= Pow2(31) then Err(ParseIntRange)
    else Ok(BinaryValue(s))
  }

  /** The digits `%b` prints parse back to the number they came from, as long
      as it fits a signed 32-bit integer. */
  lemma {:induction false} FormatParseRoundTrip(x: nat)
    requires x < Pow2(31)
    ensures ParseInt32Base2(FormatBinary(x)) == Ok(x)
  {
    FormatBinaryRoundTrip(x);
  }

  /** Parsing `b` ones: a syntax error for `b == 0`, 2^b - 1 for `b` up to 31,
      a range error beyond. */
  lemma {:induction false} ParseOnes(b: nat)
    ensures b == 0 ==> ParseInt32Base2(Repeat('1', b)) == Err(ParseIntSyntax)
    ensures 1 <= b <= 31 ==> ParseInt32Base2(Repeat('1', b)) == Ok(Pow2(b) - 1)
    ensures b >= 32 ==> ParseInt32Base2(Repeat('1', b)) == Err(ParseIntRange)
  {
    RepeatOnesValue(b);
    if b <= 31 {
      Pow2Monotone(b, 31);
    } else {
      Pow2StrictMonotone(31, b);
    }
  }
}

=== FILE: findings.dfy ===
/** Two places where the allocation code does not do what its output
    claims, each shown on a concrete input, and the corrected definitions
    with the intended properties proved about them.

    1. `CalcMask` sizes the block from the bit length of `numberOfHosts`,
       `CalcPoolSize` from that of `numberOfHosts - 1`. When `numberOfHosts`
       is a power of two the mask names a block twice as large as the one
       the pool and broadcast address fill, so the next subnet starts inside
       the previous subnet's CIDR block.
    2. `NetworkHasAddress` only bounds the broadcast address from above. When
       the parent block ends at 255.255.255.255 the cursor wraps to 0.0.0.0
       and further subnets are accepted outside the parent. */
module Findings {
  import opened Results
  import opened Bits
  import opened Addressing
  import opened Params
  import opened Sizing
  import opened Ordering
  import opened Allocation

  /** n is 2^k for some k. */
  predicate IsPowerOfTwo(n: nat) {
    n >= 1 && n == Pow2(BitLength(n) - 1)
  }

  /** The mask's host bits exceed the pool's by one exactly when the host
      count is a power of two. */
  lemma {:induction false} HostBitsMismatch(n: Uint32)
    requires 2 <= n
    ensures IsPowerOfTwo(n) ==> BitLength(n) == PoolHostBits(n) + 1
    ensures !IsPowerOfTwo(n) ==> BitLength(n) == PoolHostBits(n)
  {
    var m := n - 1;
    Wrap32Small(m);
    BitLengthBounds(m);
    var k := BitLength(m);
    if n < Pow2(k) {
      BitLengthUnique(n, k);
    } else {
      assert Pow2(k + 1) == 2 * Pow2(k);
      BitLengthUnique(n, k + 1);
    }
  }

  /** As written: the block the mask names holds the pool and its two
      reserved addresses, or twice that many when the host count is a power
      of two. */
  lemma {:induction false} MaskBlockVersusPool(network: Network, n: Uint32)
    requires 2 <= n
    requires CalcSubnet(network, n).Ok?
    ensures
      var s := CalcSubnet(network, n).value;
      BlockSize(s.network.prefix) == (if IsPowerOfTwo(n) then 2 else 1) * (s.poolSize + 2)
  {
    var s := CalcSubnet(network, n).value;
    HostBitsMismatch(n);
    assert 32 - s.network.prefix == BitLength(n);
    assert s.poolSize + 2 == Pow2(PoolHostBits(n));
    if IsPowerOfTwo(n) {
      assert Pow2(PoolHostBits(n) + 1) == 2 * Pow2(PoolHostBits(n));
    }
  }

  /** As written, on 192.168.1.0/24 with a request for 2 hosts: the subnet is
      recorded as 192.168.1.0/29 but its broadcast is 192.168.1.3, and the
      address where the next subnet starts, 192.168.1.4, lies inside that /29. */
  lemma {:induction false} MaskPoolMismatchWitness()
    ensures RequestHosts(SubnetParams(2, 60)) == 4
    ensures CalcSubnet(Network(3232235776, 24), 4)
      == Ok(Subnet(Network(3232235776, 29), 3232235779, 2, 3232235777, 3232235778))
    ensures BlockSize(29) == 8
    ensures InBlock(Network(3232235776, 29), CalcAddress(3232235779, 1))
  {
    Wrap32Small(4);
    Wrap32Small(3);
    assert Pow2(2) == 4 && Pow2(3) == 8;
    BitLengthUnique(4, 3);
    BitLengthUnique(3, 2);
    ParseOnes(2);
    Wrap32Small(2);
  }

  /** Corrected `CalcMask`: the block is sized by the pool's host bits, so it
      holds exactly the pool plus network and broadcast addresses. */
  function FixedCalcMask(prefix: Prefix, numberOfHosts: Uint32): (r: Result<Prefix>)
    ensures r.Err? ==> r.error == NetworkNotBigEnough
    ensures 1 <= numberOfHosts ==> (r.Ok? <==> prefix < 32 && numberOfHosts <= BlockSize(prefix))
    ensures r.Ok? ==> prefix <= r.value && BlockSize(r.value) == Pow2(PoolHostBits(numberOfHosts))
  {
    var hostBits := PoolHostBits(numberOfHosts);
    FixedMaskFacts(prefix, numberOfHosts);
    var networkBits := 32 - prefix - hostBits;
    if networkBits < 0 then Err(NetworkNotBigEnough) else Ok(prefix + networkBits)
  }

  lemma {:induction false} FixedMaskFacts(prefix: Prefix, n: Uint32)
    ensures 1 <= n ==> (PoolHostBits(n) <= 32 - prefix <==> prefix < 32 && n <= BlockSize(prefix))
  {
    PoolHostBitsFacts(n);
    if 1 <= n && prefix < 32 {
      Wrap32Small(n - 1);
      BitLengthFits(n - 1, 32 - prefix);
    }
  }

  /** Corrected `CalcSubnet`: as `CalcSubnet`, with the corrected mask. */
  function FixedCalcSubnet(network: Network, numberOfHosts: Uint32): (r: Result<Subnet>)
    ensures r.Err? <==> FixedCalcMask(network.prefix, numberOfHosts).Err? || CalcPoolSize(numberOfHosts).Err?
    ensures r.Err? ==> r.error == NetworkNotBigEnough || r.error == ParseIntRange
    ensures r.Ok? ==> r.value.network.address == network.address
    ensures r.Ok? ==> 1 <= r.value.network.prefix
    ensures r.Ok? ==> BlockSize(r.value.network.prefix) == r.value.poolSize + 2
    ensures r.Ok? ==> BlockSize(r.value.network.prefix) == Pow2(PoolHostBits(numberOfHosts))
    ensures r.Ok? && Masked(r.value.network) ==> r.value.broadcast == CalcBoundary(r.value.network)
  {
    var mask :- FixedCalcMask(network.prefix, numberOfHosts);
    var poolSize :- CalcPoolSize(numberOfHosts);
    Wrap32Small(poolSize + 1);
    SubnetAddressesFacts(network.address, poolSize);
    PoolHostBitsFacts(numberOfHosts);
    Pow2Of31And32();
    Pow2Monotone(32 - mask, 31);
    MaskedBlockFits(Network(network.address, mask));
    Ok(Subnet(
      Network(network.address, mask),
      CalcAddress(network.address, Wrap32(poolSize + 1)),
      poolSize,
      CalcAddress(network.address, 1),
      CalcAddress(network.address, poolSize)))
  }

  /** The correction only changes host counts that are powers of two. */
  lemma {:induction false} FixedAgreesOffPowersOfTwo(network: Network, n: Uint32)
    requires 2 <= n && !IsPowerOfTwo(n)
    ensures FixedCalcSubnet(network, n) == CalcSubnet(network, n)
  {
    HostBitsMismatch(n);
  }

  /** As written, on 255.255.255.252/30 with two requests for 1 host: the
      first subnet takes the whole parent, the cursor wraps to 0.0.0.0, and
      the second subnet, 0.0.0.0/30, is accepted although it lies outside
      the parent; `valid` ends true. */
  lemma {:induction false} WrapAroundWitness()
    ensures
      var parent := Network(4294967292, 30);
      var r := CalcVLSM(parent, [SubnetParams(1, 60), SubnetParams(1, 60)]);
      && r.Ok? && r.value.valid && |r.value.subnets| == 2
      && r.value.subnets[1].network.address == 0
      && !InBlock(parent, r.value.subnets[1].network.address)
  {
    var parent := Network(4294967292, 30);
    var reqs := [SubnetParams(1, 60), SubnetParams(1, 60)];
    Wrap32Small(3);
    Wrap32Small(2);
    assert Pow2(2) == 4;
    BitLengthUnique(3, 2);
    BitLengthUnique(2, 2);
    ParseOnes(2);
    var st0 := Initial(parent);
    RunCons(parent, st0, reqs);
    var st1 := Step(parent, st0, 3).value;
    assert st1.cursor == Network(0, 30);
    RunCons(parent, st1, reqs[1..]);
    var st2 := Step(parent, st1, 3).value;
    assert st2.valid && |st2.subnets| == 2;
    assert reqs[1..][1..] == [];
  }

  /** Corrected boundary test: the whole subnet, from its network address to
      its broadcast address, lies between the parent's first and last address. */
  predicate Inside(parent: Network, s: Subnet)
    requires 1 <= parent.prefix
  {
    parent.address <= s.network.address <= s.broadcast <= CalcBoundary(parent)
  }

  /** Corrected loop iteration: the corrected sizing and the two-sided test. */
  function FixedStep(parent: Network, st: LoopState, numberOfHosts: Uint32): (r: Result<LoopState>)
    requires 1 <= parent.prefix
    ensures r.Err? <==> FixedCalcSubnet(st.cursor, numberOfHosts).Err?
    ensures r.Ok? ==>
      var c := FixedCalcSubnet(st.cursor, numberOfHosts).value;
      && r.value.valid == Inside(parent, c)
      && (r.value.valid ==>
            && r.value.subnets == st.subnets + [c]
            && r.value.cursor == Network(CalcAddress(c.broadcast, 1), c.network.prefix))
      && (!r.value.valid ==> r.value.subnets == st.subnets && r.value.cursor == st.cursor)
  {
    var subnet :- FixedCalcSubnet(st.cursor, numberOfHosts);
    var valid := Inside(parent, subnet);
    if valid then
      Ok(LoopState(Network(CalcAddress(subnet.broadcast, 1), subnet.network.prefix), st.subnets + [subnet], true))
    else
      Ok(st.(valid := false))
  }

  function FixedRun(parent: Network, st: LoopState, reqs: seq<SubnetParams>): (r: Result<LoopState>)
    requires 1 <= parent.prefix
    ensures |reqs| == 0 ==> r == Ok(st)
    ensures r.Err? ==> r.error == NetworkNotBigEnough || r.error == ParseIntRange
    decreases |reqs|
  {
    if |reqs| == 0 then Ok(st)
    else
      var next :- FixedStep(parent, st, RequestHosts(reqs[0]));
      FixedRun(parent, next, reqs[1..])
  }

  lemma {:induction false} FixedRunCons(parent: Network, st: LoopState, reqs: seq<SubnetParams>)
    requires 1 <= parent.prefix && |reqs| > 0
    ensures FixedRun(parent, st, reqs) ==
      if FixedStep(parent, st, RequestHosts(reqs[0])).Ok?
      then FixedRun(parent, FixedStep(parent, st, RequestHosts(reqs[0])).value, reqs[1..])
      else FixedStep(parent, st, RequestHosts(reqs[0]))
  {
  }

  /** Every subnet is inside the parent and starts after the previous one's
      broadcast address. */
  predicate Separated(parent: Network, subnets: seq<Subnet>)
    requires 1 <= parent.prefix
  {
    && (forall k :: 0 <= k < |subnets| ==> Inside(parent, subnets[k]))
    && (forall k :: 1 <= k < |subnets| ==> subnets[k - 1].broadcast < subnets[k].network.address)
  }

  /** The cursor sits right after the last accepted subnet. */
  predicate Follows(st: LoopState) {
    |st.subnets| > 0 ==> st.cursor.address == CalcAddress(st.subnets[|st.subnets| - 1].broadcast, 1)
  }

  /** A parent starting at 0.0.0.0 with a prefix of at least 1 cannot end at
      255.255.255.255. */
  lemma {:induction false} BoundaryOfZeroBelowTop(p: Prefix)
    requires 1 <= p
    ensures CalcBoundary(Network(0, p)) < Two32 - 1
  {
    Pow2Monotone(32 - p, 31);
    Pow2Of31And32();
  }

  /** Inside a parent with a prefix of at least 1, the address after a
      broadcast address cannot wrap back to the parent's start or before:
      the cursor only wraps past 255.255.255.255, and a parent starting at
      0.0.0.0 cannot contain 255.255.255.255. */
  lemma {:induction false} CursorAfter(parent: Network, b: Address)
    requires 1 <= parent.prefix
    requires b <= CalcBoundary(parent) && parent.address <= CalcAddress(b, 1)
    ensures b < CalcAddress(b, 1)
  {
    if b == Two32 - 1 {
      BoundaryOfZeroBelowTop(parent.prefix);
      assert false;
    }
  }

  lemma {:induction false} AppendSeparated(parent: Network, st: LoopState, c: Subnet, next: LoopState)
    requires 1 <= parent.prefix
    requires Separated(parent, st.subnets) && Follows(st)
    requires Inside(parent, c) && c.network.address == st.cursor.address
    requires next.subnets == st.subnets + [c]
    requires next.cursor.address == CalcAddress(c.broadcast, 1)
    ensures Separated(parent, next.subnets) && Follows(next)
  {
    if |st.subnets| > 0 {
      CursorAfter(parent, st.subnets[|st.subnets| - 1].broadcast);
    }
    assert next.subnets[|next.subnets| - 1] == c;
  }

  /** An accepted subnet starts after the previous one's broadcast address. */
  lemma {:induction false} FixedStepSeparates(parent: Network, st: LoopState, n: Uint32, next: LoopState)
    requires 1 <= parent.prefix
    requires Separated(parent, st.subnets) && Follows(st)
    requires FixedStep(parent, st, n) == Ok(next)
    ensures Separated(parent, next.subnets) && Follows(next)
  {
    var c := FixedCalcSubnet(st.cursor, n).value;
    if next.valid {
      assert Inside(parent, c) && next.subnets == st.subnets + [c];
      assert c.network.address == st.cursor.address;
      assert next.cursor.address == CalcAddress(c.broadcast, 1);
      AppendSeparated(parent, st, c, next);
    } else {
      assert next.subnets == st.subnets && next.cursor == st.cursor;
    }
  }

  lemma {:induction false} FixedRunSeparates(parent: Network, st: LoopState, reqs: seq<SubnetParams>)
    requires 1 <= parent.prefix
    requires Separated(parent, st.subnets) && Follows(st)
    requires FixedRun(parent, st, reqs).Ok?
    ensures Separated(parent, FixedRun(parent, st, reqs).value.subnets)
    decreases |reqs|
  {
    if |reqs| > 0 {
      FixedRunCons(parent, st, reqs);
      var next := FixedStep(parent, st, RequestHosts(reqs[0])).value;
      FixedStepSeparates(parent, st, RequestHosts(reqs[0]), next);
      FixedRunSeparates(parent, next, reqs[1..]);
    }
  }

  /** Corrected `CalcVLSM`: every subnet lies inside the parent and the
      subnets follow one another in address order. */
  function FixedCalcVLSM(parent: Network, reqs: seq<SubnetParams>): (r: Result<Allocated>)
    requires 1 <= parent.prefix
    ensures |reqs| == 0 ==> r == Ok(Allocated([], true))
    ensures r.Err? ==> r.error == NetworkNotBigEnough || r.error == ParseIntRange
    ensures r.Ok? ==> Separated(parent, r.value.subnets)
  {
    var last :- FixedRun(parent, Initial(parent), reqs);
    FixedRunSeparates(parent, Initial(parent), reqs);
    Ok(Allocated(last.subnets, last.valid))
  }

  /** Address order makes the subnets pairwise disjoint. */
  lemma {:induction false} SeparatedDisjoint(parent: Network, subnets: seq<Subnet>, i: int, j: int)
    requires 1 <= parent.prefix
    requires Separated(parent, subnets)
    requires 0 <= i < j < |subnets|
    ensures subnets[i].broadcast < subnets[j].network.address
    decreases j - i
  {
    if i + 1 < j {
      SeparatedDisjoint(parent, subnets, i, j - 1);
      assert Inside(parent, subnets[j - 1]);
    }
  }

  lemma {:induction false} FixedRunAppend(parent: Network, st: LoopState, a: seq<SubnetParams>, b: seq<SubnetParams>)
    requires 1 <= parent.prefix
    ensures FixedRun(parent, st, a + b) ==
      if FixedRun(parent, st, a).Ok? then FixedRun(parent, FixedRun(parent, st, a).value, b) else FixedRun(parent, st, a)
    decreases |a|
  {
    if |a| == 0 {
      assert a + b == b;
    } else {
      assert (a + b)[0] == a[0] && (a + b)[1..] == a[1..] + b;
      match FixedStep(parent, st, RequestHosts(a[0]))
      case Err(_) =>
      case Ok(next) => FixedRunAppend(parent, next, a[1..], b);
    }
  }

  /** The corrected loop never drops a subnet it has found. */
  lemma {:induction false} FixedRunExtends(parent: Network, st: LoopState, reqs: seq<SubnetParams>)
    requires 1 <= parent.prefix
    requires FixedRun(parent, st, reqs).Ok?
    ensures st.subnets <= FixedRun(parent, st, reqs).value.subnets
    decreases |reqs|
  {
    if |reqs| > 0 {
      FixedRunCons(parent, st, reqs);
      var next := FixedStep(parent, st, RequestHosts(reqs[0])).value;
      FixedRunExtends(parent, next, reqs[1..]);
    }
  }

  /** As in the code as written, the incoming `valid` is never read. */
  lemma {:induction false} FixedRunIgnoresValid(parent: Network, st: LoopState, v: bool, reqs: seq<SubnetParams>)
    requires 1 <= parent.prefix
    ensures FixedRun(parent, st.(valid := v), reqs).Ok? == FixedRun(parent, st, reqs).Ok?
    ensures FixedRun(parent, st, reqs).Ok? ==>
      FixedRun(parent, st.(valid := v), reqs).value.subnets == FixedRun(parent, st, reqs).value.subnets
    ensures |reqs| > 0 ==> FixedRun(parent, st.(valid := v), reqs) == FixedRun(parent, st, reqs)
  {
    if |reqs| > 0 {
      FixedRunCons(parent, st.(valid := v), reqs);
      FixedRunCons(parent, st, reqs);
      assert FixedStep(parent, st.(valid := v), RequestHosts(reqs[0])) == FixedStep(parent, st, RequestHosts(reqs[0]));
    }
  }

  /** The first iteration of the corrected loop over `[p] + b`: a candidate
      inside the parent is the next subnet of the final result; any other is
      skipped and the loop goes on over `b` from the same cursor and subnets. */
  lemma {:induction false} FixedRunVisitsFirst(parent: Network, st: LoopState, p: SubnetParams, b: seq<SubnetParams>)
    requires 1 <= parent.prefix
    requires FixedRun(parent, st, [p] + b).Ok?
    ensures FixedCalcSubnet(st.cursor, RequestHosts(p)).Ok?
    ensures
      var c := FixedCalcSubnet(st.cursor, RequestHosts(p)).value;
      var fin := FixedRun(parent, st, [p] + b).value;
      && (Inside(parent, c) ==> |st.subnets| < |fin.subnets| && fin.subnets[|st.subnets|] == c)
      && (!Inside(parent, c) ==> FixedRun(parent, st, [p] + b) == FixedRun(parent, st.(valid := false), b))
  {
    var rest := [p] + b;
    assert rest[0] == p && rest[1..] == b;
    FixedRunCons(parent, st, rest);
    var next := FixedStep(parent, st, RequestHosts(p)).value;
    if next.valid {
      FixedRunExtends(parent, next, b);
      assert next.subnets[|st.subnets|] == FixedCalcSubnet(st.cursor, RequestHosts(p)).value;
    } else {
      assert next == st.(valid := false);
    }
  }

  /** What the corrected loop does with the request `p` met after the
      requests `a`: a candidate inside the parent is appended as the next
      subnet; any other is skipped, leaving the subnets of the same requests
      without `p` (and, unless `p` was last, the whole result). */
  lemma {:induction false} FixedCalcVLSMAcceptsOrSkips(parent: Network, a: seq<SubnetParams>, p: SubnetParams, b: seq<SubnetParams>)
    requires 1 <= parent.prefix
    requires FixedCalcVLSM(parent, a + ([p] + b)).Ok?
    ensures FixedRun(parent, Initial(parent), a).Ok?
    ensures FixedCalcVLSM(parent, a).Ok?
    ensures FixedCalcVLSM(parent, a).value.subnets == FixedRun(parent, Initial(parent), a).value.subnets
    ensures FixedCalcSubnet(FixedRun(parent, Initial(parent), a).value.cursor, RequestHosts(p)).Ok?
    ensures
      var found := FixedCalcVLSM(parent, a).value.subnets;
      var c := FixedCalcSubnet(FixedRun(parent, Initial(parent), a).value.cursor, RequestHosts(p)).value;
      var r := FixedCalcVLSM(parent, a + ([p] + b)).value;
      && (Inside(parent, c) ==> |found| < |r.subnets| && r.subnets[|found|] == c)
      && (!Inside(parent, c) ==>
            && FixedCalcVLSM(parent, a + b).Ok?
            && r.subnets == FixedCalcVLSM(parent, a + b).value.subnets
            && (|b| > 0 ==> r == FixedCalcVLSM(parent, a + b).value))
  {
    var init := Initial(parent);
    FixedRunAppend(parent, init, a, [p] + b);
    var mid := FixedRun(parent, init, a).value;
    FixedRunVisitsFirst(parent, mid, p, b);
    FixedRunAppend(parent, init, a, b);
    FixedRunIgnoresValid(parent, mid, false, b);
  }

  /** In a parent whose address is its block's first address, a subnet that
      passes the corrected test lies in the parent's block, from its network
      address to its broadcast address. */
  lemma {:induction false} InsideIsInBlock(parent: Network, s: Subnet)
    requires 1 <= parent.prefix && Masked(parent)
    requires Inside(parent, s)
    ensures InBlock(parent, s.network.address) && InBlock(parent, s.broadcast)
  {
    BoundaryIsLastOfBlock(parent, s.network.address);
    BoundaryIsLastOfBlock(parent, s.broadcast);
  }

  /** The as-written result on the wrap-around input is not separated: the
      corrected test would have rejected its second subnet. */
  lemma {:induction false} WrapAroundNotSeparated()
    ensures
      var parent := Network(4294967292, 30);
      var r := CalcVLSM(parent, [SubnetParams(1, 60), SubnetParams(1, 60)]);
      r.Ok? && !Separated(parent, r.value.subnets)
  {
    WrapAroundWitness();
    var parent := Network(4294967292, 30);
    var r := CalcVLSM(parent, [SubnetParams(1, 60), SubnetParams(1, 60)]);
    assert !Inside(parent, r.value.subnets[1]);
  }

  /** A subnet that is exactly one CIDR block: its address is masked and
      its broadcast address is the block's last address. */
  predicate ExactBlock(s: Subnet) {
    1 <= s.network.prefix && Masked(s.network) && s.broadcast == CalcBoundary(s.network)
  }

  predicate AllExact(subnets: seq<Subnet>) {
    forall k :: 0 <= k < |subnets| ==> ExactBlock(subnets[k])
  }

  /** `ExactBlock` written without division: the address is a multiple of
      the block size and the broadcast address ends the block. */
  predicate Placed(s: Subnet) {
    && 1 <= s.network.prefix
    && Aligned(s.network.address, BlockSize(s.network.prefix))
    && s.broadcast + 1 == s.network.address + BlockSize(s.network.prefix)
  }

  predicate AllPlaced(subnets: seq<Subnet>)
    decreases |subnets|
  {
    |subnets| > 0 ==> Placed(subnets[|subnets| - 1]) && AllPlaced(subnets[..|subnets| - 1])
  }

  lemma {:induction false} PlacedIsExact(s: Subnet)
    requires Placed(s)
    ensures ExactBlock(s)
  {
    AlignedIsMod(s.network.address, BlockSize(s.network.prefix));
  }

  lemma {:induction false} AllPlacedIsExact(subnets: seq<Subnet>)
    requires AllPlaced(subnets)
    ensures AllExact(subnets)
    decreases |subnets|
  {
    if |subnets| > 0 {
      var init := subnets[..|subnets| - 1];
      AllPlacedIsExact(init);
      PlacedIsExact(subnets[|subnets| - 1]);
      assert forall k :: 0 <= k < |init| ==> subnets[k] == init[k];
    }
  }

  /** The cursor sits `off` addresses past the parent's base, modulo 2^32. */
  predicate CursorAt(parent: Network, cursor: Address, off: nat) {
    cursor == parent.address + off || cursor + Two32 == parent.address + off
  }

  /** One iteration of the corrected loop on a checked request, as plain facts
      about its candidate: it starts at the cursor, its block is the
      request's span, and a masked candidate is exactly its block. */
  lemma {:induction false} FixedStepFacts(parent: Network, st: LoopState, p: SubnetParams, next: LoopState) returns (c: Subnet)
    requires 1 <= parent.prefix && ValidSubnetParams(p)
    requires FixedStep(parent, st, RequestHosts(p)) == Ok(next)
    ensures c.network.address == st.cursor.address
    ensures 1 <= c.network.prefix && BlockSize(c.network.prefix) == Span(p)
    ensures Masked(c.network) ==> c.broadcast == CalcBoundary(c.network)
    ensures next.valid == Inside(parent, c)
    ensures next.valid ==> next.subnets == st.subnets + [c] && next.cursor.address == CalcAddress(c.broadcast, 1)
    ensures !next.valid ==> next.subnets == st.subnets && next.cursor == st.cursor
  {
    c := FixedCalcSubnet(st.cursor, RequestHosts(p)).value;
  }

  /** A candidate of span `g` that starts at an aligned offset of a masked
      parent and passes the inside test starts before the parent's end and
      is exactly its block. */
  lemma {:induction false} FixedPlacement(parent: Network, c: Subnet, off: nat, g: nat)
    requires 1 <= parent.prefix && Masked(parent)
    requires 1 <= g && BlockSize(parent.prefix) % g == 0 && Aligned(off, g) && off <= BlockSize(parent.prefix)
    requires CursorAt(parent, c.network.address, off)
    requires 1 <= c.network.prefix && BlockSize(c.network.prefix) == g
    requires Masked(c.network) ==> c.broadcast == CalcBoundary(c.network)
    requires Inside(parent, c)
    ensures off + g <= BlockSize(parent.prefix)
    ensures Placed(c)
  {
    var b := BlockSize(parent.prefix);
    MaskedEnd(parent);
    assert off < b;
    assert c.network.address == parent.address + off;
    DividesTrans(parent.address, b, g);
    AlignedIsMod(off, g);
    DividesSum(parent.address, off, g);
    AlignedIsMod(c.network.address, g);
    AlignedRoom(off, g, b);
  }

  /** An offset aligned to a sorted request's span is aligned to the span of
      the next, no larger, request: what a rejected candidate, which leaves
      the offset where it is, needs. */
  lemma {:induction false} KeepAligned(reqs: seq<SubnetParams>, prefix: Prefix, off: nat)
    requires Descending(reqs) && AllValid(reqs) && |reqs| > 0
    requires AlignedFor(reqs, prefix, off)
    ensures Descending(reqs[1..]) && AllValid(reqs[1..]) && ValidSubnetParams(reqs[0])
    ensures AlignedFor(reqs[1..], prefix, off)
  {
    SortedTail(reqs);
    if |reqs| > 1 {
      var g, h := Span(reqs[0]), Span(reqs[1]);
      SpanDivides(reqs[0], reqs[1]);
      AlignedIsMod(off, g);
      DividesTrans(off, g, h);
      AlignedIsMod(off, h);
      assert reqs[1..][0] == reqs[1];
    }
  }

  lemma {:induction false} AllPlacedAppend(subnets: seq<Subnet>, c: Subnet)
    requires AllPlaced(subnets) && Placed(c)
    ensures AllPlaced(subnets + [c])
  {
    assert (subnets + [c])[..|subnets|] == subnets;
  }

  /** One accepted iteration of the corrected loop on sorted requests: the
      offset had room and moves on by the request's span. */
  lemma {:induction false} FixedAcceptedStep(parent: Network, st: LoopState, p: SubnetParams, next: LoopState, off: nat)
    requires 1 <= parent.prefix && Masked(parent) && ValidSubnetParams(p)
    requires Span(p) <= BlockSize(parent.prefix) && Aligned(off, Span(p))
    requires off <= BlockSize(parent.prefix) && CursorAt(parent, st.cursor.address, off)
    requires FixedStep(parent, st, RequestHosts(p)) == Ok(next) && next.valid
    ensures off < BlockSize(parent.prefix)
    ensures off + Span(p) <= BlockSize(parent.prefix)
    ensures CursorAt(parent, next.cursor.address, off + Span(p))
  {
    var c := FixedStepFacts(parent, st, p, next);
    SpanDividesBlock(p, parent.prefix);
    FixedPlacement(parent, c, off, Span(p));
  }

  /** The subnet an accepted iteration appends is exactly its block. */
  lemma {:induction false} FixedAcceptedPlaced(parent: Network, st: LoopState, p: SubnetParams, next: LoopState, off: nat)
    requires 1 <= parent.prefix && Masked(parent) && ValidSubnetParams(p)
    requires Span(p) <= BlockSize(parent.prefix) && Aligned(off, Span(p))
    requires off <= BlockSize(parent.prefix) && CursorAt(parent, st.cursor.address, off)
    requires AllPlaced(st.subnets)
    requires FixedStep(parent, st, RequestHosts(p)) == Ok(next) && next.valid
    ensures AllPlaced(next.subnets)
  {
    var c := FixedStepFacts(parent, st, p, next);
    SpanDividesBlock(p, parent.prefix);
    FixedPlacement(parent, c, off, Span(p));
    AllPlacedAppend(st.subnets, c);
  }

  /** An accepted iteration of the corrected loop on sorted requests keeps
      the offset aligned for the next request. */
  lemma {:induction false} FixedAcceptedKeeps(parent: Network, st: LoopState, reqs: seq<SubnetParams>, next: LoopState, off: nat) returns (off': nat)
    requires 1 <= parent.prefix && Masked(parent)
    requires Descending(reqs) && AllValid(reqs) && |reqs| > 0
    requires AlignedFor(reqs, parent.prefix, off)
    requires off <= BlockSize(parent.prefix) && CursorAt(parent, st.cursor.address, off)
    requires FixedStep(parent, st, RequestHosts(reqs[0])) == Ok(next) && next.valid
    ensures Descending(reqs[1..]) && AllValid(reqs[1..])
    ensures AlignedFor(reqs[1..], parent.prefix, off')
    ensures off' <= BlockSize(parent.prefix) && CursorAt(parent, next.cursor.address, off')
  {
    FixedAcceptedStep(parent, st, reqs[0], next, off);
    off' := NextAligned(reqs, parent.prefix, off);
  }

  /** A rejected iteration keeps the offset, which stays aligned. */
  lemma {:induction false} FixedRejectedKeeps(parent: Network, st: LoopState, reqs: seq<SubnetParams>, next: LoopState, off: nat)
    requires 1 <= parent.prefix && Masked(parent)
    requires Descending(reqs) && AllValid(reqs) && |reqs| > 0
    requires AlignedFor(reqs, parent.prefix, off)
    requires off <= BlockSize(parent.prefix) && CursorAt(parent, st.cursor.address, off)
    requires AllPlaced(st.subnets)
    requires FixedStep(parent, st, RequestHosts(reqs[0])) == Ok(next) && !next.valid
    ensures Descending(reqs[1..]) && AllValid(reqs[1..])
    ensures AlignedFor(reqs[1..], parent.prefix, off)
    ensures CursorAt(parent, next.cursor.address, off)
    ensures AllPlaced(next.subnets)
  {
    KeepAligned(reqs, parent.prefix, off);
  }

  lemma {:induction false} FixedAlignedStep(parent: Network, st: LoopState, reqs: seq<SubnetParams>, off: nat) returns (next: LoopState, off': nat)
    requires 1 <= parent.prefix && Masked(parent)
    requires Descending(reqs) && AllValid(reqs) && |reqs| > 0
    requires AlignedFor(reqs, parent.prefix, off)
    requires off <= BlockSize(parent.prefix) && CursorAt(parent, st.cursor.address, off)
    requires AllPlaced(st.subnets)
    requires FixedRun(parent, st, reqs).Ok?
    ensures FixedRun(parent, st, reqs) == FixedRun(parent, next, reqs[1..])
    ensures Descending(reqs[1..]) && AllValid(reqs[1..])
    ensures AlignedFor(reqs[1..], parent.prefix, off')
    ensures off' <= BlockSize(parent.prefix) && CursorAt(parent, next.cursor.address, off')
    ensures AllPlaced(next.subnets)
  {
    FixedRunCons(parent, st, reqs);
    next := FixedStep(parent, st, RequestHosts(reqs[0])).value;
    if next.valid {
      off' := FixedAcceptedKeeps(parent, st, reqs, next, off);
      FixedAcceptedPlaced(parent, st, reqs[0], next, off);
    } else {
      FixedRejectedKeeps(parent, st, reqs, next, off);
      off' := off;
    }
  }

  lemma {:induction false} FixedAlignedRun(parent: Network, st: LoopState, reqs: seq<SubnetParams>, off: nat)
    requires 1 <= parent.prefix && Masked(parent)
    requires Descending(reqs) && AllValid(reqs)
    requires AlignedFor(reqs, parent.prefix, off)
    requires off <= BlockSize(parent.prefix) && CursorAt(parent, st.cursor.address, off)
    requires AllPlaced(st.subnets)
    requires FixedRun(parent, st, reqs).Ok?
    ensures AllPlaced(FixedRun(parent, st, reqs).value.subnets)
    decreases |reqs|
  {
    if |reqs| > 0 {
      var next, off' := FixedAlignedStep(parent, st, reqs, off);
      FixedAlignedRun(parent, next, reqs[1..], off');
    }
  }

  /** The corrected first iteration runs only when the first request's
      span fits the parent. */
  lemma {:induction false} FirstSpanFits(parent: Network, reqs: seq<SubnetParams>)
    requires 1 <= parent.prefix && |reqs| > 0 && ValidSubnetParams(reqs[0])
    requires FixedStep(parent, Initial(parent), RequestHosts(reqs[0])).Ok?
    ensures AlignedFor(reqs, parent.prefix, 0)
  {
    assert Initial(parent).cursor == parent;
    MaskSpanFits(parent.prefix, reqs[0]);
  }

  /** A corrected mask exists only when the request's span fits the block. */
  lemma {:induction false} MaskSpanFits(prefix: Prefix, p: SubnetParams)
    requires FixedCalcMask(prefix, RequestHosts(p)).Ok?
    ensures Span(p) <= BlockSize(prefix)
  {
    var mask := FixedCalcMask(prefix, RequestHosts(p)).value;
    NarrowerBlock(prefix, mask);
  }

  lemma {:induction false} NarrowerBlock(prefix: Prefix, mask: Prefix)
    requires prefix <= mask
    ensures BlockSize(mask) <= BlockSize(prefix)
  {
    Pow2Monotone(32 - mask, 32 - prefix);
  }

  /** On sorted requests in a masked parent, every subnet the corrected loop
      hands out is exactly a CIDR block. */
  lemma {:induction false} FixedSortedExact(parent: Network, sorted: seq<SubnetParams>)
    requires 1 <= parent.prefix
    requires SortedByLess(sorted) && AllValid(sorted)
    ensures Masked(parent) && FixedCalcVLSM(parent, sorted).Ok? ==>
      AllExact(FixedCalcVLSM(parent, sorted).value.subnets)
  {
    if Masked(parent) && FixedCalcVLSM(parent, sorted).Ok? {
      var init := Initial(parent);
      SortedByLessIsDescending(sorted);
      if |sorted| > 0 {
        FixedRunCons(parent, init, sorted);
        FirstSpanFits(parent, sorted);
      }
      FixedAlignedRun(parent, init, sorted, 0);
      AllPlacedIsExact(FixedRun(parent, init, sorted).value.subnets);
    }
  }

  /** `main` with both corrections: any result is a set of disjoint subnets
      inside the parent. */
  function FixedPlan(parent: Network, reqs: seq<SubnetParams>): (r: Result<seq<Subnet>>)
    requires 1 <= parent.prefix
    requires ValidRequests(reqs)
    ensures r.Err? ==> r.error == NetworkNotBigEnough || r.error == ParseIntRange
    ensures r.Ok? ==> Separated(parent, r.value)
    ensures Masked(parent) && r.Ok? ==>
      forall k :: 0 <= k < |r.value| ==> ExactBlock(r.value[k])
  {
    var sorted := SortBySize(reqs);
    PermutationKeepsValid(sorted, reqs);
    FixedSortedExact(parent, sorted);
    Finish(FixedCalcVLSM(parent, sorted))
  }

  /** With the corrected loop on a masked parent, no address lies in the CIDR
      blocks of two different subnets. */
  lemma {:induction false} FixedPlanBlocksDisjoint(parent: Network, reqs: seq<SubnetParams>, i: int, j: int, a: Address)
    requires 1 <= parent.prefix && Masked(parent)
    requires ValidRequests(reqs)
    requires FixedPlan(parent, reqs).Ok?
    requires 0 <= i < j < |FixedPlan(parent, reqs).value|
    ensures !(InBlock(FixedPlan(parent, reqs).value[i].network, a) && InBlock(FixedPlan(parent, reqs).value[j].network, a))
  {
    var subnets := FixedPlan(parent, reqs).value;
    SeparatedDisjoint(parent, subnets, i, j);
    BoundaryIsLastOfBlock(subnets[i].network, a);
    BoundaryIsLastOfBlock(subnets[j].network, a);
    assert ExactBlock(subnets[i]) && ExactBlock(subnets[j]);
  }
}

=== FILE: ordering.dfy ===
/** `SubnetParamsSort`: requests ordered by descending size before allocation.
    `sort.Sort` is not stable, so only its postcondition is modelled: the
    result is a permutation in which no element is `Less` than an earlier one.
    `SortBySize` is one function meeting that postcondition; which order it
    gives tied requests is not a claim about Go's sort. */
module Ordering {
  import opened Params

  /** `SubnetParamsSort.Less`: element i sorts before element j when it is larger. */
  function Less(s: seq<SubnetParams>, i: int, j: int): bool
    requires 0 <= i < |s| && 0 <= j < |s|
  {
    s[i].size > s[j].size
  }

  /** What `sort.Sort` guarantees: no later element is `Less` than an earlier one. */
  predicate SortedByLess(s: seq<SubnetParams>) {
    forall i, j :: 0 <= i < j < |s| ==> !Less(s, j, i)
  }

  /** Sizes never increase along the sequence. */
  predicate Descending(s: seq<SubnetParams>) {
    forall i, j :: 0 <= i < j < |s| ==> s[i].size >= s[j].size
  }

  /** Sorted by `Less` means exactly: sizes are non-increasing. */
  lemma {:induction false} SortedByLessIsDescending(s: seq<SubnetParams>)
    ensures SortedByLess(s) <==> Descending(s)
  {
    if SortedByLess(s) {
      forall i, j | 0 <= i < j < |s|
        ensures s[i].size >= s[j].size
      {
        assert !Less(s, j, i);
      }
    }
  }

  function Sizes(s: seq<SubnetParams>): (r: seq<int>)
    ensures |r| == |s|
  {
    if |s| == 0 then [] else [s[0].size] + Sizes(s[1..])
  }

  lemma {:induction false} SizesIndex(s: seq<SubnetParams>, i: int)
    requires 0 <= i < |s|
    ensures Sizes(s)[i] == s[i].size
    decreases i
  {
    if i > 0 {
      SizesIndex(s[1..], i - 1);
    }
  }

  /** Requests agree on their sizes, position by position. */
  lemma {:induction false} SizesEqual(a: seq<SubnetParams>, b: seq<SubnetParams>)
    requires |a| == |b|
    requires forall i :: 0 <= i < |a| ==> a[i].size == b[i].size
    ensures Sizes(a) == Sizes(b)
  {
    forall i | 0 <= i < |a|
      ensures Sizes(a)[i] == Sizes(b)[i]
    {
      SizesIndex(a, i);
      SizesIndex(b, i);
    }
  }

  lemma {:induction false} SizesDescending(s: seq<SubnetParams>)
    requires Descending(s)
    ensures NonIncreasing(Sizes(s))
  {
    forall i, j | 0 <= i < j < |s|
      ensures Sizes(s)[i] >= Sizes(s)[j]
    {
      SizesIndex(s, i);
      SizesIndex(s, j);
    }
  }

  /** A descending sequence stays descending with a large enough head. */
  lemma {:induction false} DescendingCons(x: SubnetParams, t: seq<SubnetParams>)
    requires Descending(t)
    requires |t| > 0 ==> x.size >= t[0].size
    ensures Descending([x] + t)
  {
    var r := [x] + t;
    forall i, j | 0 <= i < j < |r|
      ensures r[i].size >= r[j].size
    {
      if i == 0 && j > 1 {
        assert t[0].size >= t[j - 1].size;
      }
    }
  }

  /** Insert into a descending sequence, in front of the first element that is not larger. */
  function Insert(p: SubnetParams, s: seq<SubnetParams>): (r: seq<SubnetParams>)
    requires Descending(s)
    ensures |r| == |s| + 1
    ensures r[0] == p || (|s| > 0 && r[0] == s[0])
    ensures Descending(r)
    ensures multiset(r) == multiset(s) + multiset{p}
  {
    if |s| == 0 then [p]
    else if p.size >= s[0].size then
      DescendingCons(p, s);
      [p] + s
    else
      assert s == [s[0]] + s[1..];
      var rest := Insert(p, s[1..]);
      DescendingCons(s[0], rest);
      [s[0]] + rest
  }

  /** A descending permutation of the requests. */
  function SortBySize(s: seq<SubnetParams>): (r: seq<SubnetParams>)
    ensures |r| == |s|
    ensures SortedByLess(r)
    ensures multiset(r) == multiset(s)
  {
    if |s| == 0 then []
    else
      var r := Insert(s[0], SortBySize(s[1..]));
      assert s == [s[0]] + s[1..];
      SortedByLessIsDescending(SortBySize(s[1..]));
      SortedByLessIsDescending(r);
      r
  }

  lemma {:induction false} SizesAppend(a: seq<SubnetParams>, b: seq<SubnetParams>)
    ensures Sizes(a + b) == Sizes(a) + Sizes(b)
    decreases |a|
  {
    if |a| == 0 {
      assert a + b == b;
    } else {
      assert (a + b)[1..] == a[1..] + b;
      SizesAppend(a[1..], b);
    }
  }

  /** Taking the same element out of two permutations leaves permutations. */
  lemma {:induction false} RemoveFromPermutation<T>(a: seq<T>, b: seq<T>, i: int)
    requires 0 <= i < |b| && |a| > 0 && b[i] == a[0]
    requires multiset(a) == multiset(b)
    ensures multiset(a[1..]) == multiset(b[..i] + b[i + 1..])
  {
    assert a == [a[0]] + a[1..];
    assert b == b[..i] + [b[i]] + b[i + 1..];
    assert multiset(a[1..]) == multiset(a) - multiset{a[0]};
    assert multiset(b[..i] + b[i + 1..]) == multiset(b) - multiset{b[i]};
  }

  /** Taking one request out takes its size out of the multiset of sizes. */
  lemma {:induction false} SizesRemove(b: seq<SubnetParams>, i: int)
    requires 0 <= i < |b|
    ensures multiset(Sizes(b)) == multiset{b[i].size} + multiset(Sizes(b[..i] + b[i + 1..]))
  {
    assert b == b[..i] + ([b[i]] + b[i + 1..]);
    SizesAppend(b[..i], [b[i]] + b[i + 1..]);
    SizesAppend([b[i]], b[i + 1..]);
    SizesAppend(b[..i], b[i + 1..]);
  }

  /** Permutations of requests have the same multiset of sizes. */
  lemma {:induction false} PermutationSizes(a: seq<SubnetParams>, b: seq<SubnetParams>)
    requires multiset(a) == multiset(b)
    ensures multiset(Sizes(a)) == multiset(Sizes(b))
    decreases |a|
  {
    if |a| > 0 {
      assert a[0] in multiset(b);
      var i :| 0 <= i < |b| && b[i] == a[0];
      RemoveFromPermutation(a, b, i);
      PermutationSizes(a[1..], b[..i] + b[i + 1..]);
      SizesRemove(a, 0);
      SizesRemove(b, i);
      assert a[..0] + a[1..] == a[1..];
    }
  }

  predicate NonIncreasing(s: seq<int>) {
    forall i, j :: 0 <= i < j < |s| ==> s[i] >= s[j]
  }

  lemma {:induction false} NonIncreasingTail(s: seq<int>)
    requires |s| > 0 && NonIncreasing(s)
    ensures NonIncreasing(s[1..])
  {
    forall i, j | 0 <= i < j < |s| - 1
      ensures s[1..][i] >= s[1..][j]
    {
      assert s[1..][i] == s[i + 1] && s[1..][j] == s[j + 1];
    }
  }

  lemma {:induction false} DescendingHeadsEqual(a: seq<int>, b: seq<int>)
    requires NonIncreasing(a) && NonIncreasing(b)
    requires multiset(a) == multiset(b)
    requires |a| > 0
    ensures |b| > 0 && a[0] == b[0]
  {
    assert |b| == |multiset(b)| == |multiset(a)| == |a|;
    assert a[0] in multiset(b) && b[0] in multiset(a);
    var i :| 0 <= i < |b| && b[i] == a[0];
    var j :| 0 <= j < |a| && a[j] == b[0];
  }

  lemma {:induction false} SameHeadAndTail(a: seq<int>, b: seq<int>)
    requires |a| > 0 && |b| > 0 && a[0] == b[0] && a[1..] == b[1..]
    ensures a == b
  {
    assert a == [a[0]] + a[1..] && b == [b[0]] + b[1..];
  }

  /** Two non-increasing integer sequences with the same elements are equal. */
  lemma {:induction false} DescendingPermutationsEqual(a: seq<int>, b: seq<int>)
    requires NonIncreasing(a) && NonIncreasing(b)
    requires multiset(a) == multiset(b)
    ensures a == b
    decreases |a|
  {
    if |a| == 0 {
      assert |b| == |multiset(b)| == 0;
    } else {
      DescendingHeadsEqual(a, b);
      RemoveFromPermutation(a, b, 0);
      assert b[..0] + b[1..] == b[1..];
      NonIncreasingTail(a);
      NonIncreasingTail(b);
      DescendingPermutationsEqual(a[1..], b[1..]);
      SameHeadAndTail(a, b);
    }
  }

  /** However `sort.Sort` orders tied requests, the sizes come out in the same
      order: every descending permutation has the same size sequence. */
  lemma {:induction false} TiedOrdersAgreeOnSizes(a: seq<SubnetParams>, b: seq<SubnetParams>)
    requires SortedByLess(a) && SortedByLess(b)
    requires multiset(a) == multiset(b)
    ensures Sizes(a) == Sizes(b)
  {
    SortedByLessIsDescending(a);
    SortedByLessIsDescending(b);
    PermutationSizes(a, b);
    SizesDescending(a);
    SizesDescending(b);
    DescendingPermutationsEqual(Sizes(a), Sizes(b));
  }
}

=== FILE: params.dfy ===
/** A subnet request as the prompts collect it, and the range checks the
    prompts apply before the engine runs. */
module Params {
  import opened Results
  import opened Bits

  type Byte = b: int | 0 <= b < 256

  /** `SubnetParams`: the usable host count wanted and the type byte
      ('<' minimum, '=' balanced, '>' maximum), which the engine never reads. */
  datatype SubnetParams = SubnetParams(size: Uint32, kind: Byte)

  /** The check on the number of subnets. */
  predicate ValidSubnetCount(count: int) {
    1 <= count <= 2147483648
  }

  /** The checks on one request: the size range, then the type byte '<', '=' or '>'. */
  predicate ValidSubnetParams(p: SubnetParams) {
    && 1 <= p.size <= 2147483646
    && 60 <= p.kind <= 62
  }

  /** The count check: a count outside the range is fatal. */
  function CheckSubnetCount(count: Uint32): (r: Result<Uint32>)
    ensures r.Ok? <==> 1 <= count <= Pow2(31)
    ensures r.Ok? ==> r.value == count
    ensures r.Err? ==> r.error == InvalidSubnetCount
  {
    Pow2Of31And32();
    if ValidSubnetCount(count) then Ok(count) else Err(InvalidSubnetCount)
  }

  /** The request checks in the order the prompts apply them: the size is
      checked before the type byte is looked at. */
  function CheckSubnetParams(p: SubnetParams): (r: Result<SubnetParams>)
    ensures r.Ok? <==> 1 <= p.size <= 2147483646 && 60 <= p.kind <= 62
    ensures r.Ok? ==> r.value == p
    ensures r.Err? ==> (r.error == InvalidSubnetSize <==> !(1 <= p.size <= 2147483646))
    ensures r.Err? ==> (r.error == InvalidSubnetType <==> 1 <= p.size <= 2147483646)
  {
    if !(1 <= p.size <= 2147483646) then Err(InvalidSubnetSize)
    else if !(60 <= p.kind <= 62) then Err(InvalidSubnetType)
    else Ok(p)
  }

  /** Every request passed its checks. */
  predicate AllValid(reqs: seq<SubnetParams>) {
    forall i :: 0 <= i < |reqs| ==> ValidSubnetParams(reqs[i])
  }

  /** Everything the prompts guarantee before allocation starts. */
  predicate ValidRequests(reqs: seq<SubnetParams>) {
    ValidSubnetCount(|reqs|) && AllValid(reqs)
  }

  /** The prompts' checks, applied to the count and to every request, pass
      exactly when the requests meet what the engine is given. */
  lemma {:induction false} ChecksEstablishValidRequests(reqs: seq<SubnetParams>)
    requires |reqs| < Two32
    ensures ValidRequests(reqs) <==>
      && CheckSubnetCount(|reqs|).Ok?
      && forall i :: 0 <= i < |reqs| ==> CheckSubnetParams(reqs[i]) == Ok(reqs[i])
  {
    Pow2Of31And32();
  }

  /** The block's address count: the request plus network and broadcast
      addresses, in `uint32` arithmetic. */
  function RequestHosts(p: SubnetParams): Uint32 {
    Wrap32(p.size + 2)
  }
}

=== FILE: results.dfy ===
/** Failure values of the allocation engine. Every `log.Fatal` exit of the
    engine becomes an `Err` carrying the condition that caused it. */
module Results {

  datatype Error =
    | NetworkNotBigEnough  // CalcMask: the block needs more host bits than the current prefix leaves
    | ParseIntSyntax       // strconv.ParseInt: empty string or a digit that is not binary
    | ParseIntRange        // strconv.ParseInt: the value does not fit a signed 32-bit integer
    | InvalidSubnetCount   // the number of subnets is outside 1 .. 2^31
    | InvalidSubnetSize    // a subnet size is outside 1 .. 2^31 - 2
    | InvalidSubnetType    // a type byte is not '<', '=' or '>'

  /** A value, or the fatal condition that ended the run. Usable with `:-`. */
  datatype Result<+T> = Ok(value: T) | Err(error: Error) {

    predicate IsFailure() {
      Err?
    }

    function PropagateFailure<U>(): Result<U>
      requires Err?
    {
      Err(error)
    }

    function Extract(): T
      requires Ok?
    {
      value
    }
  }
}

=== FILE: sizing.dfy ===
/** Sizing a block for a host count: the pool size, the new mask, and the
    subnet record assembled from both. */
module Sizing {
  import opened Results
  import opened Bits
  import opened Addressing
  import opened Params

  /** `Subnet`, without the dotted-quad rendering of the mask. */
  datatype Subnet = Subnet(
    network: Network,
    broadcast: Address,
    poolSize: Uint32,
    poolFrom: Address,
    poolTo: Address)

  /** The pool's host bits: the length of `%b` of `numberOfHosts - 1`,
      with the subtraction done in `uint32`. */
  function PoolHostBits(numberOfHosts: Uint32): nat {
    BitLength(Wrap32(numberOfHosts - 1))
  }

  lemma {:induction false} PoolHostBitsFacts(n: Uint32)
    ensures PoolHostBits(n) >= 1
    ensures PoolHostBits(n) <= 31 <==> 1 <= n <= 0x8000_0000
    ensures 1 <= n ==> n <= Pow2(PoolHostBits(n))
    ensures 2 <= n ==> Pow2(PoolHostBits(n)) < 2 * n
  {
    var m := Wrap32(n - 1);
    BitLengthBounds(m);
    Pow2Of31And32();
    if n == 0 {
      assert m == Two32 - 1;
      BitLengthUnique(m, 32);
    } else {
      assert m == n - 1;
      BitLengthFits(m, 31);
    }
  }

  /** `CalcPoolSize`: 2^b - 2 usable addresses, where b is the bit length of
      `numberOfHosts - 1` (at least one). The `uint32` subtraction turns 0
      into 2^32 - 1, whose 32 ones overflow `ParseInt`'s 32-bit range. */
  function CalcPoolSize(numberOfHosts: Uint32): (r: Result<Uint32>)
    ensures r.Ok? <==> 1 <= numberOfHosts <= 0x8000_0000
    ensures r.Err? ==> r.error == ParseIntRange
    ensures r.Ok? ==> r.value + 2 == Pow2(PoolHostBits(numberOfHosts))
    ensures r.Ok? ==> numberOfHosts <= r.value + 2 <= 0x8000_0000
    ensures r.Ok? && numberOfHosts >= 2 ==> r.value + 2 < 2 * numberOfHosts
  {
    var hostBits := PoolHostBits(numberOfHosts);
    PoolHostBitsFacts(numberOfHosts);
    ParseOnes(hostBits);
    var i :- ParseInt32Base2(Repeat('1', hostBits));
    Pow2UpTo31(hostBits);
    Wrap32Small(i - 1);
    Ok(Wrap32(i - 1))
  }

  lemma {:induction false} HostBitsNeededFacts(prefix: Prefix, n: Uint32)
    ensures BitLength(n) >= 1
    ensures BitLength(n) > 32 - prefix <==> BlockSize(prefix) <= n || (n == 0 && prefix == 32)
    ensures n < Pow2(BitLength(n))
    ensures n >= 1 ==> Pow2(BitLength(n)) <= 2 * n
  {
    BitLengthBounds(n);
    if prefix < 32 {
      BitLengthFits(n, 32 - prefix);
    }
  }

  /** `CalcMask`: the prefix whose block has room for `numberOfHosts`
      addresses, i.e. 32 minus the bit length of `numberOfHosts`; fatal when
      that needs more host bits than the current prefix leaves. */
  function CalcMask(prefix: Prefix, numberOfHosts: Uint32): (r: Result<Prefix>)
    ensures r.Err? ==> r.error == NetworkNotBigEnough
    ensures r.Err? <==> BitLength(numberOfHosts) > 32 - prefix
    ensures r.Err? <==> BlockSize(prefix) <= numberOfHosts || (numberOfHosts == 0 && prefix == 32)
    ensures r.Ok? ==> prefix <= r.value < 32
    ensures r.Ok? ==> numberOfHosts < BlockSize(r.value)
    ensures r.Ok? && numberOfHosts >= 1 ==> BlockSize(r.value) <= 2 * numberOfHosts
  {
    var availableHostBits := 32 - prefix;
    var hostBitsNeeded := BitLength(numberOfHosts);
    var networkBits := availableHostBits - hostBitsNeeded;
    HostBitsNeededFacts(prefix, numberOfHosts);
    if networkBits < 0 then Err(NetworkNotBigEnough) else Ok(prefix + networkBits)
  }

  /** Re-applying the mask computation to its own result with the same host
      count changes nothing (and so cannot fail). */
  lemma {:induction false} CalcMaskIdempotent(prefix: Prefix, numberOfHosts: Uint32)
    requires CalcMask(prefix, numberOfHosts).Ok?
    ensures CalcMask(CalcMask(prefix, numberOfHosts).value, numberOfHosts) == CalcMask(prefix, numberOfHosts)
  {
  }

  lemma {:induction false} SubnetAddressesFacts(a: Address, poolSize: Uint32)
    requires poolSize + 1 < Two32
    ensures CalcAddress(a, Wrap32(poolSize + 1)) == Wrap32(a + poolSize + 1)
    ensures a + poolSize + 1 < Two32 ==>
      && CalcAddress(a, 1) == a + 1
      && CalcAddress(a, poolSize) == a + poolSize
      && CalcAddress(a, Wrap32(poolSize + 1)) == a + poolSize + 1
  {
    Wrap32Small(poolSize + 1);
  }

  /** `CalcSubnet`: keep the given address as the network address, narrow the
      mask for `numberOfHosts`, and place the pool right after the network
      address and the broadcast right after the pool. */
  function CalcSubnet(network: Network, numberOfHosts: Uint32): (r: Result<Subnet>)
    ensures r.Err? <==> CalcMask(network.prefix, numberOfHosts).Err? || CalcPoolSize(numberOfHosts).Err?
    ensures CalcMask(network.prefix, numberOfHosts).Err? ==> r == Err(NetworkNotBigEnough)
    ensures r.Err? ==> r.error == NetworkNotBigEnough || r.error == ParseIntRange
    ensures r.Ok? ==> r.value.network == Network(network.address, CalcMask(network.prefix, numberOfHosts).value)
    ensures r.Ok? ==> r.value.poolSize == CalcPoolSize(numberOfHosts).value
    ensures r.Ok? ==> r.value.broadcast == Wrap32(network.address + r.value.poolSize + 1)
    ensures r.Ok? ==>
      && r.value.poolFrom == CalcAddress(network.address, 1)
      && r.value.poolTo == CalcAddress(network.address, r.value.poolSize)
    ensures r.Ok? && network.address + r.value.poolSize + 1 < Two32 ==>
      var s := r.value;
      && network.address < s.poolFrom
      && s.poolTo < s.broadcast
      && s.poolTo - s.poolFrom + 1 == s.poolSize
      && s.broadcast - network.address == s.poolSize + 1
  {
    var mask :- CalcMask(network.prefix, numberOfHosts);
    var poolSize :- CalcPoolSize(numberOfHosts);
    Wrap32Small(poolSize + 1);
    SubnetAddressesFacts(network.address, poolSize);
    Ok(Subnet(
      Network(network.address, mask),
      CalcAddress(network.address, Wrap32(poolSize + 1)),
      poolSize,
      CalcAddress(network.address, 1),
      CalcAddress(network.address, poolSize)))
  }

  /** A computed subnet is a fixed point: sizing it again for the same host
      count, at its own address and mask, yields the same subnet. */
  lemma {:induction false} CalcSubnetFixedPoint(network: Network, numberOfHosts: Uint32)
    requires CalcSubnet(network, numberOfHosts).Ok?
    ensures CalcSubnet(CalcSubnet(network, numberOfHosts).value.network, numberOfHosts) == CalcSubnet(network, numberOfHosts)
  {
    CalcMaskIdempotent(network.prefix, numberOfHosts);
  }

  /** With a larger host count the mask fails at least as often. */
  lemma {:induction false} CalcMaskMonotone(prefix: Prefix, m: Uint32, n: Uint32)
    requires 1 <= m <= n
    requires CalcMask(prefix, n).Ok?
    ensures CalcMask(prefix, m).Ok?
    ensures CalcMask(prefix, n).value <= CalcMask(prefix, m).value
  {
    BitLengthMonotone(m, n);
  }

  /** For every request that passes the size check, `size + 2` does not wrap,
      `ParseInt`'s range error cannot happen, and the pool holds at least the
      requested hosts, at most twice as many. */
  lemma {:induction false} PoolSizeCoversRequest(p: SubnetParams)
    requires ValidSubnetParams(p)
    ensures RequestHosts(p) == p.size + 2
    ensures CalcPoolSize(RequestHosts(p)).Ok?
    ensures p.size <= CalcPoolSize(RequestHosts(p)).value < 2 * p.size + 2
  {
    Wrap32Small(p.size + 2);
  }
}
